=== FILE: README.md ===
# DLGMusicVisualizer meters, visualizers and host helpers in Dafny

This project models the arithmetic and state under DLGMusicVisualizer's audio
visualizers. It works on exact reals, integers and sequences. Drawing, audio
and UIKit calls are replaced by inputs and by descriptions of what would be
drawn.

- `MeterTable` is the decibel lookup table. It covers construction
  (`init(minDecibels:tableSize:root:)` and the two convenience initialisers)
  and `valueAt(in:)`. Index 0 is 0 dB and holds 1; the last index is
  `minDecibels` and holds 0. `pow` is a parameter, and `PowLaws` lists the
  facts about it that the proofs use.
- `LevelMeter` is one level meter's redraw, for both the CoreGraphics path
  (`LevelMeter.draw`) and the OpenGL path (`GLLevelMeter.drawView`):
  - the `doInit` defaults, `LEVELMETER_CLAMP` and `compareLevelThresholds`;
  - continuous mode, as a list of bands;
  - discrete mode, as a list of lights, each with a rect, a colour threshold
    and an intensity;
  - how each light is painted.
- `BaseVisualizer` is the lifecycle every visualizer shares:
  - the attached player, seen only through its channel count;
  - the display-link timer, counted so that links replaced without being
    invalidated stay visible;
  - the selected channels, the channel reset in `setPlayer`, and
    `startTimer`/`stopTimer`;
  - the channel loop with its two `break` guards, which the level meter and
    the circle visualizer share.
- `CALevelMeter` is the multi-channel level meter:
  - sub-meter layout;
  - the decay tick when no player is attached;
  - the driven tick when a player is attached, with readings as input;
  - `refresh` and `setPlayer`.
- `CircleVisualizer` is the circle visualizer's state tick:
  - the power history rows and the smear loop;
  - feeding the newest power and the drawn segments;
  - the `aniSeg` and `angleBias` counters.
- `MainViewController` is the launcher screen:
  - the move-to-front play history and the row-delete guard;
  - `isLocalFile` and `checkUrl`.
- `ViewController` is `time2string`.
- `SwiftInt`, `Strings` and `Wrappers` are small helpers: Swift's truncating
  `Int` conversion and division, first-occurrence search, and `Option`.

Two behaviours of the code worth knowing:
- A light takes the colour of the first threshold whose `maxValue` is
  strictly greater than the light's `lightMaxVal`, not greater or equal (see
  `LevelMeter.BoundaryLightTakesNextColor`).
- The table's index 0 is 0 dB (value 1), not the quietest value.

The circle visualizer's copy loop runs forwards, so every pass copies the value
the previous pass just wrote. The history is therefore smeared rather than
shifted. The model does exactly that (`CircleVisualizer.Shift`). For contrast,
`CircleVisualizer.ShiftBack` is a one-place shift, and
`CircleVisualizer.SmearIsNotShift` shows that the two differ. The repository
does not say which behaviour was meant, so this is recorded here as a
description and not as a finding.

## Model

| member | source | states |
|---|---|---|
| SwiftInt.Trunc | DLGMusicVisualizer/DLGMusicVisualizer/MeterTable.swift:51 | Swift `Int(x)` truncates toward zero: the floor for x >= 0 and the ceiling for x < 0 |
| MeterTable.Build | DLGMusicVisualizer/DLGMusicVisualizer/MeterTable.swift:26-46 | resolution·(tableSize−1) = minDecibels is always assigned. minDecibels >= 0 gives an empty table. Otherwise the table has exactly tableSize entries, and entry i is the normalised amplitude at decibels i·resolution raised to 1/root |
| MeterTable.Entry | DLGMusicVisualizer/DLGMusicVisualizer/MeterTable.swift:40-43 | for a genuine power function and minDecibels < 0, an entry at a decibel value in [minDecibels, 0] lies in [0, 1], is 1 at 0 dB and 0 at minDecibels |
| MeterTable.Entries | DLGMusicVisualizer/DLGMusicVisualizer/MeterTable.swift:39-45 | the construction loop appends one entry per index, tableSize in all, and entry i is built from decibels i·resolution |
| MeterTable.WithMinDecibels | DLGMusicVisualizer/DLGMusicVisualizer/MeterTable.swift:22-24 | the one-argument initialiser builds 400 entries with root 2 |
| MeterTable.Default | DLGMusicVisualizer/DLGMusicVisualizer/MeterTable.swift:18-20 | the no-argument initialiser gives minDecibels −80 and 400 entries, with resolution·399 = −80 |
| MeterTable.LookupIndex | DLGMusicVisualizer/DLGMusicVisualizer/MeterTable.swift:51-52 | for minDecibels <= d < 0 the truncated index lies inside the table. Its grid value index·resolution lies in [d, d − resolution), so the lookup rounds toward 0 dB by less than one step |
| MeterTable.ValueAt | DLGMusicVisualizer/DLGMusicVisualizer/MeterTable.swift:48-53 | 0 below minDecibels and 1 at or above 0 dB. In between, the table entry at the index i whose grid value i·resolution lies in [d, d − resolution): the truncated lookup, with no interpolation |
| MeterTable.EmptyTableNeverIndexed | DLGMusicVisualizer/DLGMusicVisualizer/MeterTable.swift:48-52 | when minDecibels >= 0, valueAt answers 0 below minDecibels and 1 otherwise, for any table contents: every value takes one of the two early returns, so the empty table is never indexed, and such a table still has the shape valueAt relies on |
| MeterTable.AdjAmpEndpoints | DLGMusicVisualizer/DLGMusicVisualizer/MeterTable.swift:34-42 | the normalised amplitude is 1 at 0 dB and 0 at minDecibels |
| MeterTable.TableEndpoints | DLGMusicVisualizer/DLGMusicVisualizer/MeterTable.swift:34-45 | given a genuine power function, entry 0 (0 dB) is 1 and the last entry (minDecibels) is 0 |
| MeterTable.AdjAmpMonotone | DLGMusicVisualizer/DLGMusicVisualizer/MeterTable.swift:34-42 | on [minDecibels, 0] the normalised amplitude lies in [0, 1] and grows with the decibel value |
| MeterTable.EntryMonotone | DLGMusicVisualizer/DLGMusicVisualizer/MeterTable.swift:40-43 | on [minDecibels, 0] an entry lies in [0, 1], and a louder decibel value never gets a smaller entry |
| MeterTable.GridOrder | DLGMusicVisualizer/DLGMusicVisualizer/MeterTable.swift:28-40 | grid decibels fall from 0 at index 0 to minDecibels at the last index |
| MeterTable.BuildMonotone | DLGMusicVisualizer/DLGMusicVisualizer/MeterTable.swift:26-45 | every built table is non-increasing in its index, has entries in [0, 1], and has the shape that valueAt relies on |
| MeterTable.LookupIndexMonotone | DLGMusicVisualizer/DLGMusicVisualizer/MeterTable.swift:51 | a louder decibel value never looks up a later index |
| SwiftInt.TruncMonotone | DLGMusicVisualizer/DLGMusicVisualizer/MeterTable.swift:51 | truncation is monotone on non-negative values |
| MeterTable.ValueAtMonotone | DLGMusicVisualizer/DLGMusicVisualizer/MeterTable.swift:48-53 | on a non-increasing table with entries in [0, 1], valueAt stays in [0, 1] and is non-decreasing in its argument |
| MeterTable.BuiltValueAtMonotone | DLGMusicVisualizer/DLGMusicVisualizer/MeterTable.swift:26-53 | every table the initialiser builds answers in [0, 1] and monotonically |
| LevelMeter.DefaultThresholds | DLGMusicVisualizer/DLGMusicVisualizer/Visualizer/LevelMeter/LevelMeter.swift:38-44 | three ascending thresholds, green/yellow/red, at 0.25 (0.4 for OpenGL), 0.8 and 1, the last being 1 |
| LevelMeter.Inset | DLGMusicVisualizer/DLGMusicVisualizer/Visualizer/LevelMeter/LevelMeter.swift:140 | `insetBy(dx: d, dy: d)` moves the origin by d on both axes, and the right and top edges in by d |
| LevelMeter.DefaultMeter | DLGMusicVisualizer/DLGMusicVisualizer/Visualizer/LevelMeter/GLLevelMeter.swift:50-71 | level 0, no lights, variable intensity on, vertical iff width < height; the OpenGL meter takes the screen scale |
| LevelMeter.Clamp | DLGMusicVisualizer/DLGMusicVisualizer/Visualizer/LevelMeter/LevelMeter.swift:52-54 | the result lies in [min, max] when min <= max, equals x when x is inside, and is always one of min, x or max |
| LevelMeter.CompareLevelThresholds | DLGMusicVisualizer/DLGMusicVisualizer/Visualizer/LevelMeter/LevelMeter.swift:56-60 | a three-way comparison on maxValue: 1, −1 or 0, each exactly when the matching order holds |
| LevelMeter.CompareAntisymmetric | DLGMusicVisualizer/DLGMusicVisualizer/Visualizer/LevelMeter/LevelMeter.swift:56-60 | swapping the arguments negates the comparison |
| LevelMeter.DrawBounds | DLGMusicVisualizer/DLGMusicVisualizer/Visualizer/LevelMeter/GLLevelMeter.swift:153-161 | the drawing surface: the view bounds, rotated for a horizontal meter, so the width is the view's width (vertical) or height (horizontal); on the OpenGL path both sides are scaled by the scale factor, with origin y −1 (vertical) or 1 (horizontal) |
| LevelMeter.BandRect | DLGMusicVisualizer/DLGMusicVisualizer/Visualizer/LevelMeter/LevelMeter.swift:88-89 | a band's rect spans the full width and runs from height·lo to height·hi |
| LevelMeter.BandsFrom | DLGMusicVisualizer/DLGMusicVisualizer/Visualizer/LevelMeter/GLLevelMeter.swift:163-194 | the band loop from threshold k: one band per threshold in order, each ending at min(maxValue, level) and starting where the previous one ended, stopping after the first threshold above the level |
| LevelMeter.Bands | DLGMusicVisualizer/DLGMusicVisualizer/Visualizer/LevelMeter/LevelMeter.swift:80-95 | continuous mode: bands in threshold order starting at 0; all but the last lie at or below the level; each ends at min(maxValue, level); the list stops early only after a threshold the level lies below |
| LevelMeter.BandsContiguous | DLGMusicVisualizer/DLGMusicVisualizer/Visualizer/LevelMeter/LevelMeter.swift:86-95 | each band's rect starts where the previous band's rect ends |
| LevelMeter.PeakLight | DLGMusicVisualizer/DLGMusicVisualizer/Visualizer/LevelMeter/LevelMeter.swift:107-111 | −1 when peak <= 0. Otherwise an index in [0, N) whose interval holds peak·N, capped at the last light |
| LevelMeter.RawIntensity | DLGMusicVisualizer/DLGMusicVisualizer/Visualizer/LevelMeter/LevelMeter.swift:114-122 | (level − i/N)/((i+1)/N − i/N) equals level·N − i: how far the level reaches into light i's interval |
| LevelMeter.LightIntensity | DLGMusicVisualizer/DLGMusicVisualizer/Visualizer/LevelMeter/GLLevelMeter.swift:215-223 | the peak light gets 1. Other lights get level·N − i, unclamped on CoreGraphics and clamped to [0, 1] on OpenGL. With variable intensity off, the result is 1 exactly when that value is positive |
| LevelMeter.ColorScan | DLGMusicVisualizer/DLGMusicVisualizer/Visualizer/LevelMeter/LevelMeter.swift:128-136 | the colour loop from j on: the chosen threshold is one past the last non-final threshold with maxValue <= lightMaxVal, or the colour carried in |
| LevelMeter.ColorIndex | DLGMusicVisualizer/DLGMusicVisualizer/Visualizer/LevelMeter/GLLevelMeter.swift:225-233 | the chosen threshold's predecessor has maxValue <= lightMaxVal, and every later non-final threshold exceeds lightMaxVal |
| LevelMeter.ColorIndexAscending | DLGMusicVisualizer/DLGMusicVisualizer/Visualizer/LevelMeter/LevelMeter.swift:128-136 | for ascending thresholds the colour is that of the first threshold whose maxValue strictly exceeds lightMaxVal, or else the last |
| LevelMeter.InsetAmount | DLGMusicVisualizer/DLGMusicVisualizer/Visualizer/LevelMeter/LevelMeter.swift:102-105 | 0 below 4 points per light, 0.5 from 4 up to 8, and 1 from 8 on; never more than an eighth of the light's height |
| LevelMeter.InsetAmountMonotone | DLGMusicVisualizer/DLGMusicVisualizer/Visualizer/LevelMeter/GLLevelMeter.swift:198-201 | a taller light never gets a smaller inset |
| LevelMeter.LightFrame | DLGMusicVisualizer/DLGMusicVisualizer/Visualizer/LevelMeter/GLLevelMeter.swift:235-236 | before the inset, light i is full width and H/N tall. Its y is H·i/N on CoreGraphics and bounds.y·(H·i/N) on OpenGL, as written |
| LevelMeter.LightsTile | DLGMusicVisualizer/DLGMusicVisualizer/Visualizer/LevelMeter/LevelMeter.swift:138-139 | on CoreGraphics the lights tile the height: light 0 starts at 0, each later light starts where the previous ends, and the last ends at the top |
| LevelMeter.PaintOf | DLGMusicVisualizer/DLGMusicVisualizer/Visualizer/LevelMeter/GLLevelMeter.swift:248-266 | full colour iff the intensity is exactly 1; colour with alpha = intensity iff 0 < intensity ≠ 1; nothing iff intensity <= 0 |
| LevelMeter.LightAt | DLGMusicVisualizer/DLGMusicVisualizer/Visualizer/LevelMeter/LevelMeter.swift:113-140 | light i: the inset frame; the colour of ColorIndex at lightMaxVal = (i+1)/N; the intensity LightIntensity gives, with the peak light at 1 and every intensity in [0, 1] on OpenGL |
| LevelMeter.Lights | DLGMusicVisualizer/DLGMusicVisualizer/Visualizer/LevelMeter/LevelMeter.swift:113-160 | N lights in order; with a positive peak the peak light is fully lit; on OpenGL every intensity lies in [0, 1] |
| LevelMeter.Render | DLGMusicVisualizer/DLGMusicVisualizer/Visualizer/LevelMeter/LevelMeter.swift:64-160 | bands exactly when there are no lights, computed on the drawing bounds; otherwise exactly the lights of the discrete loop over those same bounds, one per light |
| LevelMeter.TenLightsExample | DLGMusicVisualizer/DLGMusicVisualizer/Visualizer/LevelMeter/LevelMeter.swift:119-126 | with ten lights at level and peak 0.95, light 9 is fully lit, CoreGraphics gives light 0 intensity 9.5 (drawn faded) and OpenGL clamps it to 1 |
| LevelMeter.BoundaryLightTakesNextColor | DLGMusicVisualizer/DLGMusicVisualizer/Visualizer/LevelMeter/LevelMeter.swift:130-135 | a light whose maxValue equals a threshold's (0.25 with four lights) already takes the next colour |
| BaseVisualizer.Initial | DLGMusicVisualizer/DLGMusicVisualizer/Visualizer/BaseVisualizer.swift:15-20 | no player and no timer, channels [0], a −80 dB table of 400 entries, useGL and vertical false |
| BaseVisualizer.Default | DLGMusicVisualizer/DLGMusicVisualizer/Visualizer/BaseVisualizer.swift:38-39 | `doInit` sets vertical iff width < height and changes nothing else |
| BaseVisualizer.SetChannels | DLGMusicVisualizer/DLGMusicVisualizer/Visualizer/BaseVisualizer.swift:74-77 | the channel list is replaced wholesale and nothing else changes |
| BaseVisualizer.SetUseGL | DLGMusicVisualizer/DLGMusicVisualizer/Visualizer/BaseVisualizer.swift:79-82 | only the flag changes |
| BaseVisualizer.SetPlayer | DLGMusicVisualizer/DLGMusicVisualizer/Visualizer/BaseVisualizer.swift:50-72 | a display link is created exactly on nil → player, replacing any held one after invalidating it. With a player the channel list has its channel count: reset to 0..n−1 iff the count differs, else unchanged |
| BaseVisualizer.DetachKeepsTimer | DLGMusicVisualizer/DLGMusicVisualizer/Visualizer/BaseVisualizer.swift:50-72 | detaching leaves the timer, the live links and the channels as they were, so decay ticks go on |
| BaseVisualizer.StartTimer | DLGMusicVisualizer/DLGMusicVisualizer/Visualizer/BaseVisualizer.swift:84-89 | with a player a new link is held and any previous one is dropped still running (live links +1); without a player nothing changes |
| BaseVisualizer.StopTimer | DLGMusicVisualizer/DLGMusicVisualizer/Visualizer/BaseVisualizer.swift:91-94 | the held link is invalidated and no link is held; orphaned links keep running |
| BaseVisualizer.DoubleStartLeaksLink | DLGMusicVisualizer/DLGMusicVisualizer/Visualizer/BaseVisualizer.swift:84-94 | start, start, stop leaves one more live link than before |
| BaseVisualizer.Reached | DLGMusicVisualizer/DLGMusicVisualizer/Visualizer/LevelMeter/CALevelMeter.swift:103-108 | the channel loop processes positions 0 … r−1, whose indices are below the count and at most 127, and breaks at position r if r is not the end |
| BaseVisualizer.SubscriptsCoverReached | DLGMusicVisualizer/DLGMusicVisualizer/Visualizer/Circle/CircleVisualizer.swift:56-60 | subscripts in range up to the breaking position imply subscripts in range for the processed positions |
| CALevelMeter.NewSubMeter | DLGMusicVisualizer/DLGMusicVisualizer/Visualizer/LevelMeter/CALevelMeter.swift:58-60 | a sub-meter on the chosen backend with 30 lights, the visualizer's orientation, level and peak 0, and that backend's default thresholds |
| CALevelMeter.MeterFrame | DLGMusicVisualizer/DLGMusicVisualizer/Visualizer/LevelMeter/CALevelMeter.swift:44-57 | meter i of count: for a vertical layout full height at y 0, starting at slot i of the widened width and ending 2 points before slot i + 1; the same along the height for a horizontal one |
| CALevelMeter.Layout | DLGMusicVisualizer/DLGMusicVisualizer/Visualizer/LevelMeter/CALevelMeter.swift:34-63 | one fresh sub-meter per channel, sub-meter i in slot i of the span widened by 2 |
| CALevelMeter.LayoutTilesVertical | DLGMusicVisualizer/DLGMusicVisualizer/Visualizer/LevelMeter/CALevelMeter.swift:45-50 | vertical meters are full height; the first starts at x 0, neighbours are exactly 2 points apart, and the last ends at the view's width |
| CALevelMeter.LayoutTilesHorizontal | DLGMusicVisualizer/DLGMusicVisualizer/Visualizer/LevelMeter/CALevelMeter.swift:51-56 | horizontal meters are full width; the first starts at y 0, neighbours are exactly 2 points apart, and the last ends at the view's height |
| CALevelMeter.Relayout | DLGMusicVisualizer/DLGMusicVisualizer/Visualizer/LevelMeter/CALevelMeter.swift:22-24 | laying out again replaces the sub-meters with Layout of the stored frame, orientation, backend and scale, one per channel. Every other field is unchanged |
| CALevelMeter.Default | DLGMusicVisualizer/DLGMusicVisualizer/Visualizer/LevelMeter/CALevelMeter.swift:18-20 | the base defaults with channels [0]; the frame size and screen scale are the arguments; one CoreGraphics sub-meter laid out over the whole frame; peaks shown, falloff clock 0, no player |
| CALevelMeter.SetChannels | DLGMusicVisualizer/DLGMusicVisualizer/Visualizer/BaseVisualizer.swift:74-77 | the base channel update followed by a layout: the sub-meters are Layout of the frame with one per new channel. Nothing else changes: peak flag, clock and geometry stay |
| CALevelMeter.SetUseGL | DLGMusicVisualizer/DLGMusicVisualizer/Visualizer/BaseVisualizer.swift:79-82 | every sub-meter is rebuilt by Layout on the chosen backend, with fresh frames and zero levels. Nothing else changes |
| CALevelMeter.Falloff | DLGMusicVisualizer/DLGMusicVisualizer/Visualizer/LevelMeter/CALevelMeter.swift:78-83 | max(0, value − elapsed·rate): never negative, positive only as value − elapsed·rate, and never above the value for non-negative inputs |
| CALevelMeter.FalloffComposes | DLGMusicVisualizer/DLGMusicVisualizer/Visualizer/LevelMeter/CALevelMeter.swift:75-83 | falling off over a and then over b equals falling off over a + b |
| CALevelMeter.DecayMeter | DLGMusicVisualizer/DLGMusicVisualizer/Visualizer/LevelMeter/CALevelMeter.swift:77-88 | one sub-meter's decay: the level falls off at 0.8/s, the peak at 0.7/s only when peaks are shown, everything else stays, and a non-negative level never rises |
| CALevelMeter.PeakStaysAboveLevel | DLGMusicVisualizer/DLGMusicVisualizer/Visualizer/LevelMeter/CALevelMeter.swift:15-16 | since the peak falls more slowly (0.7/s) than the level (0.8/s), a peak at or above the level stays there |
| CALevelMeter.DecayAll | DLGMusicVisualizer/DLGMusicVisualizer/Visualizer/LevelMeter/CALevelMeter.swift:76-90 | every sub-meter decays by the same elapsed time |
| CALevelMeter.DecayTickMeters | DLGMusicVisualizer/DLGMusicVisualizer/Visualizer/LevelMeter/CALevelMeter.swift:76-98 | without a player, the tick's sub-meters are the old ones decayed over now minus the last fire; the clock moves to now and the player and peak flag stay |
| CALevelMeter.MaxShown | DLGMusicVisualizer/DLGMusicVisualizer/Visualizer/LevelMeter/CALevelMeter.swift:73-88 | the running maximum bounds every shown value (peak if shown, else level) and is the seed or one of them |
| CALevelMeter.DecayTick | DLGMusicVisualizer/DLGMusicVisualizer/Visualizer/LevelMeter/CALevelMeter.swift:72-99 | each level, and each peak when shown, falls by the time since the last fire. Every other field of every sub-meter stays, and so do the geometry and peak flag. The timer stops iff every shown value is 0 (an empty list stops it). The clock moves to now |
| CALevelMeter.DecayMeterComposes | DLGMusicVisualizer/DLGMusicVisualizer/Visualizer/LevelMeter/CALevelMeter.swift:77-88 | two decays of one sub-meter equal one decay over the summed time |
| CALevelMeter.DecayAllComposes | DLGMusicVisualizer/DLGMusicVisualizer/Visualizer/LevelMeter/CALevelMeter.swift:76-90 | two decay passes over the sub-meters equal one pass over the summed time |
| CALevelMeter.Drive | DLGMusicVisualizer/DLGMusicVisualizer/Visualizer/LevelMeter/CALevelMeter.swift:110-117 | the level becomes valueAt(average power), and the peak becomes valueAt(peak power), or 0 with peaks hidden. Every other field stays: frame, backend, light count, thresholds, orientation, intensity mode and scale |
| CALevelMeter.DriveForgetsPrevious | DLGMusicVisualizer/DLGMusicVisualizer/Visualizer/LevelMeter/CALevelMeter.swift:110-117 | a driven sub-meter keeps nothing of its previous level or peak: no blending |
| CALevelMeter.DriveFrom | DLGMusicVisualizer/DLGMusicVisualizer/Visualizer/LevelMeter/CALevelMeter.swift:103-120 | position j reads readings[j] and writes sub-meter channels[j]. The last writer of a sub-meter wins; sub-meters no processed position names are untouched |
| CALevelMeter.DrivenTick | DLGMusicVisualizer/DLGMusicVisualizer/Visualizer/LevelMeter/CALevelMeter.swift:100-120 | only the sub-meters change: timer, clock, peak flag and geometry stay. Each named sub-meter is the previous one driven by the reading at its last position, as `Drive` states; unnamed sub-meters are unchanged |
| CALevelMeter.Refresh | DLGMusicVisualizer/DLGMusicVisualizer/Visualizer/LevelMeter/CALevelMeter.swift:68-121 | without a player, exactly the decay tick at now; with one, exactly the driven tick on the readings, whose processed channel indices are in range. The precondition includes the subscript made before the guard |
| CALevelMeter.GuardAfterSubscript | DLGMusicVisualizer/DLGMusicVisualizer/Visualizer/LevelMeter/CALevelMeter.swift:104-107 | for channels [0, 2] and two sub-meters the loop would stop at position 1, yet subscripts sub-meter 2 first |
| CALevelMeter.GuardedRefresh | DLGMusicVisualizer/DLGMusicVisualizer/Visualizer/LevelMeter/CALevelMeter.swift:102-108 | with the guards tested first, only processed positions need in-range indices; player and meter count are kept |
| CALevelMeter.GuardedRefreshNeedsOnlyNonNegative | DLGMusicVisualizer/DLGMusicVisualizer/Visualizer/LevelMeter/CALevelMeter.swift:102-108 | on a consistent meter, the guarded tick is safe whenever the processed channel indices are non-negative and there is one reading per channel |
| CALevelMeter.SetPlayer | DLGMusicVisualizer/DLGMusicVisualizer/Visualizer/LevelMeter/CALevelMeter.swift:131-137 | the base transition. On a channel reset the sub-meters are laid out again, one per new channel; otherwise they are kept. The falloff clock never changes, because the detach test sees the new player. The peak flag and geometry stay |
| CALevelMeter.SetPlayerSnapshot | DLGMusicVisualizer/DLGMusicVisualizer/Visualizer/LevelMeter/CALevelMeter.swift:131-135 | with the detach test made before the player is stored, detaching sets the clock to now; apart from the clock the result equals the as-written `setPlayer` |
| CALevelMeter.DecayAfterDetach | DLGMusicVisualizer/DLGMusicVisualizer/Visualizer/LevelMeter/CALevelMeter.swift:72-80 | after a corrected detach at t0, the first decay tick at t1 lowers each level by exactly (t1 − t0)·0.8 |
| CALevelMeter.StaleFalloffClock | DLGMusicVisualizer/DLGMusicVisualizer/Visualizer/LevelMeter/CALevelMeter.swift:131-137 | as written, a detach at 1000 s followed by a tick at 1000.5 s drops a full level to 0; with the snapshot it is 0.6 |
| CircleVisualizer.Default | DLGMusicVisualizer/DLGMusicVisualizer/Visualizer/Circle/CircleVisualizer.swift:16-25 | 20 degrees per segment (18 segments make 360), empty history, counters 0, and the base defaults untouched: the overriding doInit never sets vertical |
| CircleVisualizer.ZeroRows | DLGMusicVisualizer/DLGMusicVisualizer/Visualizer/Circle/CircleVisualizer.swift:30 | n rows of 19 zeros |
| CircleVisualizer.SetChannels | DLGMusicVisualizer/DLGMusicVisualizer/Visualizer/Circle/CircleVisualizer.swift:27-33 | the existing rows are kept and one zero row per channel is appended, so the row count only grows. The segment width and both counters stay |
| CircleVisualizer.SetUseGL | DLGMusicVisualizer/DLGMusicVisualizer/Visualizer/BaseVisualizer.swift:79-82 | only the flag changes; the history, the segment width and both counters are kept |
| CircleVisualizer.SetPlayer | DLGMusicVisualizer/DLGMusicVisualizer/Visualizer/BaseVisualizer.swift:61-71 | the base transition. A channel reset goes through the overriding setChannels: the old rows are kept and one zero row per channel is appended. Otherwise the rows stay. The segment width and both counters always stay |
| CircleVisualizer.ShiftFrom | DLGMusicVisualizer/DLGMusicVisualizer/Visualizer/Circle/CircleVisualizer.swift:50-54 | from pass i on, entries i..17 of each of the first count rows all end up holding entry i; earlier entries, entry 18 and the other rows stay |
| CircleVisualizer.Shift | DLGMusicVisualizer/DLGMusicVisualizer/Visualizer/Circle/CircleVisualizer.swift:49-54 | after the copy loop, entries 0..17 of each of the first count rows equal the old entry 0; entry 18 is never written; other rows are untouched |
| CircleVisualizer.ShiftBack | DLGMusicVisualizer/DLGMusicVisualizer/Visualizer/Circle/CircleVisualizer.swift:50-54 | a reference one-place shift: entry e takes the old entry e−1 for 0 < e < 18 |
| CircleVisualizer.SmearIsNotShift | DLGMusicVisualizer/DLGMusicVisualizer/Visualizer/Circle/CircleVisualizer.swift:50-54 | on a row 0, 1, 2, … the copy loop leaves 0 at entry 2 where a shift would leave 1 |
| CircleVisualizer.FeedFrom | DLGMusicVisualizer/DLGMusicVisualizer/Visualizer/Circle/CircleVisualizer.swift:56-64 | entry 0 of row channels[k] becomes valueAt of that channel's average power for every processed position; other entries and unnamed rows stay |
| CircleVisualizer.FeedIdempotent | DLGMusicVisualizer/DLGMusicVisualizer/Visualizer/Circle/CircleVisualizer.swift:56-64 | each write depends only on the channel it names, so feeding the same readings twice leaves the rows as one feed does |
| CircleVisualizer.SegmentAt | DLGMusicVisualizer/DLGMusicVisualizer/Visualizer/Circle/CircleVisualizer.swift:68-82 | segment i spans degreePerSeg degrees from i·degreePerSeg ± angleBias; outer mid radius in [80, 160] and inner radius in [0, 80] for powers in [0, 1] |
| CircleVisualizer.Segments | DLGMusicVisualizer/DLGMusicVisualizer/Visualizer/Circle/CircleVisualizer.swift:68-88 | exactly aniSeg segments, segment i from rows 0 and 1 at index i |
| CircleVisualizer.SegmentsJoin | DLGMusicVisualizer/DLGMusicVisualizer/Visualizer/Circle/CircleVisualizer.swift:69-80 | consecutive segments join: each starts at the previous one's end angle |
| CircleVisualizer.AdvanceAniSeg | DLGMusicVisualizer/DLGMusicVisualizer/Visualizer/Circle/CircleVisualizer.swift:91-93 | from a count in [0, 18] the arc grows by one segment exactly while fewer than 18 are drawn, and stays at 18 after |
| CircleVisualizer.AdvanceAngleBias | DLGMusicVisualizer/DLGMusicVisualizer/Visualizer/Circle/CircleVisualizer.swift:95-99 | from a bias in [0, 360] the next bias is bias + 1 modulo 361, so it stays in [0, 360] |
| CircleVisualizer.AniSegGrows | DLGMusicVisualizer/DLGMusicVisualizer/Visualizer/Circle/CircleVisualizer.swift:91-93 | after k frames aniSeg is min(a + k, 18) |
| CircleVisualizer.AngleBiasCycles | DLGMusicVisualizer/DLGMusicVisualizer/Visualizer/Circle/CircleVisualizer.swift:95-99 | after k frames angleBias is (b + k) mod 361: it stays in [0, 360] and cycles with period 361 |
| CircleVisualizer.Draw | DLGMusicVisualizer/DLGMusicVisualizer/Visualizer/Circle/CircleVisualizer.swift:46-100 | nothing changes without a player. With one: both counters advance, and the drawn segments are Segments of the new history. Entries 1..17 of the first count rows hold their old entry 0. Processed rows get the new power at entry 0, and entry 0 of every other row stays. Entry 18 is never written. Rows past the count keep entries 1..18, and unnamed ones stay whole. Validity is kept |
| CircleVisualizer.MonoPlayerCannotDraw | DLGMusicVisualizer/DLGMusicVisualizer/Visualizer/Circle/CircleVisualizer.swift:21-63 | a fresh circle with a mono player has no rows (one channel matches the default list), so its first frame would trap |
| CircleVisualizer.StereoPlayerDraws | DLGMusicVisualizer/DLGMusicVisualizer/Visualizer/Circle/CircleVisualizer.swift:46-81 | a stereo player gets two rows, and the first and the second frame can both be drawn |
| MainViewController.RemoveAt | DLGMusicVisualizer/DLGMusicVisualizer/MainViewController.swift:114 | removal of one entry: order kept, and the multiset loses exactly that entry |
| MainViewController.FindUrl | DLGMusicVisualizer/DLGMusicVisualizer/MainViewController.swift:111-117 | the search loop: the first entry at or after i holding the URL, or none when no such entry holds it |
| MainViewController.AddHistoryUrl | DLGMusicVisualizer/DLGMusicVisualizer/MainViewController.swift:109-124 | the new entry is first. The length grows iff the URL was absent; otherwise exactly the first entry with that URL is removed and the rest keep their order |
| MainViewController.AddKeepsDistinct | DLGMusicVisualizer/DLGMusicVisualizer/MainViewController.swift:109-124 | a history without repeated URLs stays so, and the added URL appears only at the front |
| MainViewController.AddNewestAgain | DLGMusicVisualizer/DLGMusicVisualizer/MainViewController.swift:110-121 | re-adding the newest URL only refreshes its time stamp |
| MainViewController.DeleteHistoryAtIndex | DLGMusicVisualizer/DLGMusicVisualizer/MainViewController.swift:126-129 | exactly the entry at the index goes, the rest keep their order |
| MainViewController.CommitEdit | DLGMusicVisualizer/DLGMusicVisualizer/MainViewController.swift:293-305 | section 0, a non-delete style or a row past the end leaves the history alone; otherwise exactly one entry, that row's, goes |
| MainViewController.OfferedDeleteRemovesRow | DLGMusicVisualizer/DLGMusicVisualizer/MainViewController.swift:285-305 | for the editing style the table offers, section 0 never changes and any other section deletes exactly the row |
| MainViewController.DeleteAllHistory | DLGMusicVisualizer/DLGMusicVisualizer/MainViewController.swift:148-154 | the history is emptied |
| MainViewController.AddAfterDeleteAll | DLGMusicVisualizer/DLGMusicVisualizer/MainViewController.swift:109-154 | after clearing, the next addition is the whole history |
| MainViewController.IsLocalFile | DLGMusicVisualizer/DLGMusicVisualizer/MainViewController.swift:170-181 | as written: local iff the string has no ':' at all |
| MainViewController.IsLocalFileByScheme | DLGMusicVisualizer/DLGMusicVisualizer/MainViewController.swift:170-181 | compared by scheme: local iff there is no ':' or the text before the first ':' is "file" ignoring case |
| MainViewController.SameIgnoringCaseIsFoldedEquality | DLGMusicVisualizer/DLGMusicVisualizer/MainViewController.swift:175 | case-insensitive comparison is equality after folding both strings to lower case |
| MainViewController.FileUrlNotLocal | DLGMusicVisualizer/DLGMusicVisualizer/MainViewController.swift:174-176 | "file:///music/a.mp3" is not local as written but is local by scheme, as is "FILE:///…"; "http://…" is not; a bare path is local in both |
| MainViewController.CheckUrl | DLGMusicVisualizer/DLGMusicVisualizer/MainViewController.swift:183-199 | strings with ':' and absolute paths are returned unchanged; anything else is joined onto the documents directory |
| MainViewController.CheckUrlIdempotent | DLGMusicVisualizer/DLGMusicVisualizer/MainViewController.swift:183-199 | when the join gives an absolute path, resolving a resolved URL changes nothing |
| Strings.FindChar | DLGMusicVisualizer/DLGMusicVisualizer/MainViewController.swift:171 | `range(of:)` for one character: the first occurrence at or after i, or none when there is no occurrence |
| SwiftInt.SwiftDiv | DLGMusicVisualizer/DLGMusicVisualizer/ViewController.swift:214 | Swift integer division truncates toward zero: q·b <= a < q·b + b for a >= 0, and q·b − b < a <= q·b below 0 |
| SwiftInt.SwiftRem | DLGMusicVisualizer/DLGMusicVisualizer/ViewController.swift:215 | quotient·b + remainder = a, with the remainder taking the sign of a |
| ViewController.Decimal | DLGMusicVisualizer/DLGMusicVisualizer/ViewController.swift:216 | `%zd` writes a '-' for negative values, then decimal digits that read back to the magnitude |
| ViewController.Pad2 | DLGMusicVisualizer/DLGMusicVisualizer/ViewController.swift:216 | `%02zd` is at least two characters, and exactly two digits for 0..99 |
| ViewController.Time2String | DLGMusicVisualizer/DLGMusicVisualizer/ViewController.swift:212-218 | for t >= 0, the label is the decimal minutes, ':' and the two-digit seconds, with 0 <= s <= 59 and 60·m + s equal to the truncated time |
| ViewController.ParseDigitsOfDigits | DLGMusicVisualizer/DLGMusicVisualizer/ViewController.swift:216 | reading back the decimal digits of n gives n |
| ViewController.ParsePad2 | DLGMusicVisualizer/DLGMusicVisualizer/ViewController.swift:216 | reading back the two-digit seconds gives the seconds |
| ViewController.Time2StringRoundTrip | DLGMusicVisualizer/DLGMusicVisualizer/ViewController.swift:212-218 | for t >= 0 the label parses back to minutes and seconds with 60·m + s equal to the truncated time |
| ViewController.Time2StringInjective | DLGMusicVisualizer/DLGMusicVisualizer/ViewController.swift:212-218 | different whole seconds give different labels |
| ViewController.FractionIgnored | DLGMusicVisualizer/DLGMusicVisualizer/ViewController.swift:213 | fractions of a second never change the label |
| ViewController.Examples | DLGMusicVisualizer/DLGMusicVisualizer/ViewController.swift:212-218 | 3600 s gives "60:00" (there is no hour field), 59.9 gives "0:59", 125 gives "2:05", and −65.5 gives "-1:-5" |

## Left out

- Rendering is not modelled. That covers the OpenGL ES context, framebuffer, `bail` and `layoutSubviews` in `GLLevelMeter`, every fill, stroke and colour call, and `setNeedsDisplay`. A redraw is described by the bands or lights it would draw. `bail` needs a colour without four components, and every default colour has four.
- The circle visualizer's screen geometry is not modelled: `pointOnCircle`, `radian`, and the trigonometry. A segment records its angles and radii instead.
- Platform plumbing is replaced by inputs:
  - the player becomes its channel count, and its meter readings become a sequence argument;
  - the clock (`CFAbsoluteTimeGetCurrent`) becomes a `now` parameter;
  - the documents directory and `appendingPathComponent` become parameters;
  - the display link becomes the timer counters.
- Other platform plumbing is not modelled at all: NotificationCenter registration, UserDefaults persistence (`loadHistory`, `saveHistory`), table-view data sources and segues.
- `pow` is a parameter, not real exponentiation; `PowLaws` states what is assumed of it.
- Floating point is not modelled: CGFloat/Double rounding, IEEE infinities and NaN. All arithmetic is on exact reals.
- MeterTable.Build: requires tableSize >= 2. A table size of 1 divides by zero, which gives an infinite resolution in IEEE arithmetic and is not modelled. A table size of 0 builds an empty table that `valueAt` would index. The convenience initialisers always pass 400.
- SwiftInt.Trunc: Swift's `Int(x)` traps for values outside the 64-bit range and for NaN. The model's integers are unbounded.
- ViewController.Time2String: the contract describes non-negative times only. Negative times are pinned down by `ViewController.Examples`, and the 64-bit trap of `Int(t)` is not modelled.
- CALevelMeter.Refresh: the `success == false` branch only redisplays and logs, so it is not modelled. The model returns the tick's state.
- CALevelMeter.DecayAllComposes: composition of two decay ticks is stated on the sub-meter sequence, not on whole states. The whole-state equality is too costly for the solver to check. `CALevelMeter.DecayTick`'s contract pins down every other field.
- `cellTextUrl` and `lastPathComponent` are not modelled. The consequence of the `isLocalFile` finding for them is described under Findings.
- Optional URLs are not modelled. `addHistoryUrl` and `checkUrl` force-unwrap them, so a nil URL traps; the model takes non-optional strings.
- MainViewController.SameIgnoringCase: case-insensitive comparison is modelled for ASCII letters only, not for all of Unicode.
- MainViewController.AddHistoryUrl: URLs are matched code point by code point. Swift's `String ==` compares by canonical equivalence, so two differently composed spellings of one accented URL match in the app but not in the model.
- MainViewController.CheckUrl: the leading '/' test looks at the first code point. Swift's `characters.first` is the first grapheme cluster, which differs only when a combining mark follows the '/'.
- LevelMeter.Inset: models `insetBy` for rects at least twice the inset in size. For larger insets `insetBy` returns `CGRect.null`, while the model gives a negative width or height.
- The dynamic selector dispatch in `didSelectRowAt`, the interruption handler, progress updates and layout constraints are not modelled. They are reflection or view plumbing.

## Findings

| source | as written | input that shows it | evidently intended | confidence | as-written member | corrected member |
|---|---|---|---|---|---|---|
| DLGMusicVisualizer/DLGMusicVisualizer/Visualizer/LevelMeter/CALevelMeter.swift:131-135 | `super.setPlayer` has already stored the new player when `self.player != nil && player == nil` is tested, so the test is always false and the falloff clock is never reset on detach | a meter at level 1 attached at start-up (clock 0), detached at t = 1000 s, first decay tick at 1000.5 s: the level drops to 0 at once | detaching restarts the clock, so half a second of falloff leaves 0.6 | high, not executed | CALevelMeter.StaleFalloffClock | CALevelMeter.DecayAfterDetach |
| DLGMusicVisualizer/DLGMusicVisualizer/MainViewController.swift:174-176 | the compared prefix runs up to and including the first ':' ("file:"), so it never equals "file" and only strings without ':' count as local | "file:///music/a.mp3" is not local, so `cellTextUrl` would show the whole URL. The defect is latent: nothing in MainViewController.swift calls `cellTextUrl`, and the history rows show the raw URL (MainViewController.swift:234) | compare the scheme, the text before the ':' | high, not executed | MainViewController.FileUrlNotLocal | MainViewController.IsLocalFileByScheme |
| DLGMusicVisualizer/DLGMusicVisualizer/Visualizer/LevelMeter/CALevelMeter.swift:104-107 | `subLevelMeters?[channelIndex]` is evaluated before the `channelIndex >= count` guard that should protect it | two sub-meters and channels [0, 2]: the loop would break at position 1 but first subscripts sub-meter 2 and traps. The defect is latent: `setPlayer` only ever resets the channels to 0..n−1 (BaseVisualizer.swift:64-69), so only a caller that sets other channels reaches it | test the guards before subscripting | medium, not executed | CALevelMeter.GuardAfterSubscript | CALevelMeter.GuardedRefreshNeedsOnlyNonNegative |

=== FILE: BaseVisualizer.dfy ===
/** The lifecycle shared by every visualizer: the attached player, the
    display-link timer and the selected channels. A player is seen only
    through its channel count; the display link through whether
    `updateTimer` holds one, how many were created, and how many were
    replaced without being invalidated (they keep firing). */
module BaseVisualizer {
  import opened Wrappers
  import MeterTable

  datatype Visualizer = Visualizer(
    player: Option<nat>,
    timerActive: bool,
    linksCreated: nat,
    orphanedLinks: nat,
    channelNumbers: seq<int>,
    vertical: bool,
    useGL: bool,
    meterTable: MeterTable.Table)

  /** Display links still firing: the one `updateTimer` holds and any orphans. */
  function LiveLinks(v: Visualizer): nat {
    v.orphanedLinks + (if v.timerActive then 1 else 0)
  }

  /** The stored-property initial values, before `doInit` runs. */
  function Initial(pow: (real, real) -> real): (v: Visualizer)
    requires MeterTable.Amp(pow, -80.0) != 1.0
    ensures v.player == None && !v.timerActive && LiveLinks(v) == 0
    ensures v.channelNumbers == [0]
    ensures v.meterTable.minDecibels == -80.0 && |v.meterTable.table| == 400
    ensures !v.useGL && !v.vertical
  {
    Visualizer(None, false, 0, 0, [0], false, false, MeterTable.WithMinDecibels(-80.0, pow))
  }

  /** `init(frame:)` followed by `doInit`: vertical iff the frame is taller than wide. */
  function Default(frameWidth: real, frameHeight: real, pow: (real, real) -> real): (v: Visualizer)
    requires MeterTable.Amp(pow, -80.0) != 1.0
    ensures v.vertical <==> frameWidth < frameHeight
    ensures v == Initial(pow).(vertical := v.vertical)
  {
    Initial(pow).(vertical := frameWidth < frameHeight)
  }

  /** The channel list [0, 1, ..., n - 1] that `setPlayer` installs. */
  function Channels(n: nat): (r: seq<int>)
    ensures |r| == n
    ensures forall i :: 0 <= i < n ==> r[i] == i
  {
    seq(n, i => i)
  }

  /** `setPlayer` replaces the channel list exactly when a player comes
      with a channel count different from the list's length. */
  predicate ResetsChannels(v: Visualizer, p: Option<nat>) {
    p.Some? && p.value != |v.channelNumbers|
  }

  /** `setChannels`: the list is replaced wholesale. */
  function SetChannels(v: Visualizer, channels: seq<int>): (r: Visualizer)
    ensures r.channelNumbers == channels
    ensures r.(channelNumbers := v.channelNumbers) == v
  {
    v.(channelNumbers := channels)
  }

  /** `setUseGL`. */
  function SetUseGL(v: Visualizer, useGL: bool): (r: Visualizer)
    ensures r.useGL == useGL
    ensures r.(useGL := v.useGL) == v
  {
    v.(useGL := useGL)
  }

  /** `setPlayer`: a display link is (re)created, after invalidating any
      existing one, only when a player arrives where there was none. */
  function SetPlayer(v: Visualizer, p: Option<nat>): (r: Visualizer)
    ensures r.player == p
    ensures r.linksCreated == v.linksCreated + (if v.player.None? && p.Some? then 1 else 0)
    ensures r.timerActive <==> v.timerActive || (v.player.None? && p.Some?)
    ensures r.orphanedLinks == v.orphanedLinks
    ensures p.Some? ==> |r.channelNumbers| == p.value
    ensures ResetsChannels(v, p) ==> r.channelNumbers == Channels(p.value)
    ensures !ResetsChannels(v, p) ==> r.channelNumbers == v.channelNumbers
    ensures r.vertical == v.vertical && r.useGL == v.useGL && r.meterTable == v.meterTable
  {
    var v1 := if v.player.None? && p.Some? then
                v.(timerActive := true, linksCreated := v.linksCreated + 1)
              else v;
    var v2 := v1.(player := p);
    if ResetsChannels(v2, p) then SetChannels(v2, Channels(p.value)) else v2
  }

  /** Detaching the player never touches the timer, so decay ticks go on. */
  lemma DetachKeepsTimer(v: Visualizer)
    ensures SetPlayer(v, None).timerActive == v.timerActive
    ensures LiveLinks(SetPlayer(v, None)) == LiveLinks(v)
    ensures SetPlayer(v, None).channelNumbers == v.channelNumbers
  {}

  /** `startTimer`: a new display link whenever a player is attached; an
      existing link is dropped without being invalidated. */
  function StartTimer(v: Visualizer): (r: Visualizer)
    ensures r.timerActive <==> v.timerActive || v.player.Some?
    ensures v.player.Some? ==> r.linksCreated == v.linksCreated + 1
    ensures LiveLinks(r) == LiveLinks(v) + (if v.player.Some? then 1 else 0)
    ensures r.player == v.player && r.channelNumbers == v.channelNumbers
  {
    if v.player.Some? then
      v.(timerActive := true,
         linksCreated := v.linksCreated + 1,
         orphanedLinks := v.orphanedLinks + (if v.timerActive then 1 else 0))
    else v
  }

  /** `stopTimer`: the held display link, if any, is invalidated. */
  function StopTimer(v: Visualizer): (r: Visualizer)
    ensures !r.timerActive
    ensures LiveLinks(r) == LiveLinks(v) - (if v.timerActive then 1 else 0)
    ensures r.(timerActive := v.timerActive) == v
  {
    v.(timerActive := false)
  }

  /** Starting twice before a stop leaves a link that nothing can stop. */
  lemma DoubleStartLeaksLink(v: Visualizer)
    requires v.player.Some? && !v.timerActive
    ensures LiveLinks(StopTimer(StartTimer(StartTimer(v)))) == LiveLinks(v) + 1
  {}

  // ---------------------------------------------------------------------
  // The channel loop shared by the level meter and circle visualizers
  // ---------------------------------------------------------------------

  /** The guards that end the channel loop: an index at or past the
      number of selected channels, or above 127. */
  predicate Breaks(channelIndex: int, count: int) {
    channelIndex >= count || channelIndex > 127
  }

  function ReachedFrom(channels: seq<int>, i: nat): (r: nat)
    requires i <= |channels|
    ensures i <= r <= |channels|
    ensures forall k :: i <= k < r ==> !Breaks(channels[k], |channels|)
    ensures r < |channels| ==> Breaks(channels[r], |channels|)
    decreases |channels| - i
  {
    if i == |channels| || Breaks(channels[i], |channels|) then i
    else ReachedFrom(channels, i + 1)
  }

  /** How many loop positions are processed before the first `break`. */
  function Reached(channels: seq<int>): (r: nat)
    ensures r <= |channels|
    ensures forall k :: 0 <= k < r ==> channels[k] < |channels| && channels[k] <= 127
    ensures r < |channels| ==> Breaks(channels[r], |channels|)
  {
    ReachedFrom(channels, 0)
  }

  /** Every subscript the loop performs with channel indices, up to and
      including the position that breaks, lies in [0, size). */
  predicate SubscriptsInRange(channels: seq<int>, size: int) {
    forall k :: 0 <= k < |channels| && k <= Reached(channels) ==> 0 <= channels[k] < size
  }

  /** Every position the loop gets past the guards with writes at an index in [0, size). */
  predicate ReachedInRange(channels: seq<int>, size: int) {
    forall k :: 0 <= k < Reached(channels) ==> 0 <= channels[k] < size
  }

  lemma SubscriptsCoverReached(channels: seq<int>, size: int)
    requires SubscriptsInRange(channels, size)
    ensures ReachedInRange(channels, size)
  {}
}

=== FILE: CALevelMeter.dfy ===
/** The multi-channel level meter: one sub-meter per selected channel,
    laid out side by side, driven from the player's meters while a player
    is attached and falling off towards zero once it is detached. */
module CALevelMeter {
  import opened Wrappers
  import MeterTable
  import LM = LevelMeter
  import BV = BaseVisualizer

  const PeakFalloffPerSec: real := 0.7
  const LevelFalloffPerSec: real := 0.8
  const LightsPerMeter: int := 30
  /** The gap left between neighbouring sub-meters. */
  const Gap: real := 2.0

  datatype SubMeter = SubMeter(frame: LM.Rect, backend: LM.Backend, meter: LM.Meter)

  datatype State = State(
    vis: BV.Visualizer,
    frameWidth: real,
    frameHeight: real,
    screenScale: real,
    meters: seq<SubMeter>,
    showsPeaks: bool,
    peakFalloffLastFire: real)

  /** What every public operation keeps: one sub-meter per selected
      channel and a table `valueAt` can read. */
  predicate Consistent(s: State) {
    |s.meters| == |s.vis.channelNumbers| && MeterTable.Shaped(s.vis.meterTable)
  }

  // ---------------------------------------------------------------------
  // Layout
  // ---------------------------------------------------------------------

  function BackendOf(useGL: bool): LM.Backend {
    if useGL then LM.OpenGL else LM.CoreGraphics
  }

  /** Offset of slot `i` of `count` equal slots along `total`. */
  function Slot(i: int, count: int, total: real): real
    requires count > 0
  {
    (i as real / count as real) * total
  }

  function SlotSize(count: int, total: real): real
    requires count > 0
  {
    (1.0 / count as real) * total
  }

  lemma SlotStep(i: int, count: int, total: real)
    requires count > 0
    ensures Slot(i, count, total) + SlotSize(count, total) == Slot(i + 1, count, total)
  {
    var c := count as real;
    assert i as real / c + 1.0 / c == (i + 1) as real / c;
  }

  lemma SlotEnds(count: int, total: real)
    requires count > 0
    ensures Slot(0, count, total) == 0.0
    ensures Slot(count, count, total) == total
  {}

  /** Frame of sub-meter `i`: the view, widened (vertical) or heightened
      (horizontal) by the gap, cut into `count` slots each shrunk by the gap. */
  function MeterFrame(width: real, height: real, vertical: bool, count: int, i: int): (r: LM.Rect)
    requires count > 0
    ensures vertical ==> r.y == 0.0 && r.height == height && r.x == Slot(i, count, width + Gap) &&
                         r.x + r.width + Gap == Slot(i + 1, count, width + Gap)
    ensures !vertical ==> r.x == 0.0 && r.width == width && r.y == Slot(i, count, height + Gap) &&
                          r.y + r.height + Gap == Slot(i + 1, count, height + Gap)
  {
    SlotStep(i, count, if vertical then width + Gap else height + Gap);
    if vertical then
      LM.Rect(Slot(i, count, width + Gap), 0.0, SlotSize(count, width + Gap) - Gap, height)
    else
      LM.Rect(0.0, Slot(i, count, height + Gap), width, SlotSize(count, height + Gap) - Gap)
  }

  /** A freshly initialised sub-meter with 30 lights and the visualizer's orientation. */
  function NewSubMeter(frame: LM.Rect, useGL: bool, vertical: bool, screenScale: real): (sm: SubMeter)
    ensures sm.frame == frame && sm.backend == BackendOf(useGL)
    ensures sm.meter.numLights == LightsPerMeter && sm.meter.vertical == vertical
    ensures sm.meter.level == 0.0 && sm.meter.peakLevel == 0.0
    ensures sm.meter.thresholds == LM.DefaultThresholds(BackendOf(useGL))
  {
    var m := LM.DefaultMeter(BackendOf(useGL), frame.width, frame.height, screenScale);
    SubMeter(frame, BackendOf(useGL), m.(numLights := LightsPerMeter, vertical := vertical))
  }

  /** `layoutSubLevelMeters`: the old sub-meters are discarded. */
  function Layout(width: real, height: real, vertical: bool, useGL: bool, screenScale: real, count: nat)
    : (r: seq<SubMeter>)
    ensures |r| == count
    ensures forall i :: 0 <= i < count ==>
              r[i] == NewSubMeter(MeterFrame(width, height, vertical, count, i), useGL, vertical, screenScale)
  {
    seq(count, i requires 0 <= i < count =>
      NewSubMeter(MeterFrame(width, height, vertical, count, i), useGL, vertical, screenScale))
  }

  /** Vertical layout: sub-meters start at the left edge, are separated by
      exactly the gap, and the last one ends at the right edge. */
  lemma LayoutTilesVertical(width: real, height: real, useGL: bool, screenScale: real, count: nat, i: nat)
    requires 0 <= i < count
    ensures var r := Layout(width, height, true, useGL, screenScale, count);
      r[0].frame.x == 0.0 &&
      r[i].frame.y == 0.0 && r[i].frame.height == height &&
      (i + 1 < count ==> r[i].frame.x + r[i].frame.width + Gap == r[i + 1].frame.x) &&
      (i + 1 == count ==> r[i].frame.x + r[i].frame.width == width)
  {
    SlotStep(i, count, width + Gap);
    SlotEnds(count, width + Gap);
  }

  /** Horizontal layout: the same tiling along the height. */
  lemma LayoutTilesHorizontal(width: real, height: real, useGL: bool, screenScale: real, count: nat, i: nat)
    requires 0 <= i < count
    ensures var r := Layout(width, height, false, useGL, screenScale, count);
      r[0].frame.y == 0.0 &&
      r[i].frame.x == 0.0 && r[i].frame.width == width &&
      (i + 1 < count ==> r[i].frame.y + r[i].frame.height + Gap == r[i + 1].frame.y) &&
      (i + 1 == count ==> r[i].frame.y + r[i].frame.height == height)
  {
    SlotStep(i, count, height + Gap);
    SlotEnds(count, height + Gap);
  }

  function Relayout(s: State): (r: State)
    ensures MeterTable.Shaped(s.vis.meterTable) ==> Consistent(r)
    ensures r.vis == s.vis && r.peakFalloffLastFire == s.peakFalloffLastFire
    ensures r == s.(meters := r.meters)
    ensures r.meters == Layout(s.frameWidth, s.frameHeight, s.vis.vertical, s.vis.useGL, s.screenScale,
                               |s.vis.channelNumbers|)
  {
    s.(meters := Layout(s.frameWidth, s.frameHeight, s.vis.vertical, s.vis.useGL, s.screenScale,
                        |s.vis.channelNumbers|))
  }

  /** `init(frame:)`: the base defaults, one sub-meter for channel 0,
      peaks shown, the falloff clock at 0. */
  function Default(width: real, height: real, screenScale: real, pow: (real, real) -> real): (s: State)
    requires MeterTable.Amp(pow, -80.0) != 1.0
    ensures Consistent(s)
    ensures |s.meters| == 1 && s.meters[0].backend == LM.CoreGraphics
    ensures s.showsPeaks && s.peakFalloffLastFire == 0.0 && s.vis.player == None
    ensures s.vis == BV.Default(width, height, pow) && s.vis.channelNumbers == [0]
    ensures s.frameWidth == width && s.frameHeight == height && s.screenScale == screenScale
    ensures s.meters == Layout(width, height, s.vis.vertical, false, screenScale, 1)
  {
    var v := BV.Default(width, height, pow);
    Relayout(State(v, width, height, screenScale, [], true, 0.0))
  }

  /** `setChannels`: new channel list, sub-meters laid out again. */
  function SetChannels(s: State, channels: seq<int>): (r: State)
    requires MeterTable.Shaped(s.vis.meterTable)
    ensures Consistent(r)
    ensures r.vis == BV.SetChannels(s.vis, channels)
    ensures |r.meters| == |channels|
    ensures r.meters == Layout(s.frameWidth, s.frameHeight, s.vis.vertical, s.vis.useGL, s.screenScale, |channels|)
    ensures r == s.(vis := r.vis, meters := r.meters)
  {
    Relayout(s.(vis := BV.SetChannels(s.vis, channels)))
  }

  /** `setUseGL`: every sub-meter is rebuilt on the chosen backend. */
  function SetUseGL(s: State, useGL: bool): (r: State)
    requires MeterTable.Shaped(s.vis.meterTable)
    ensures Consistent(r)
    ensures forall i :: 0 <= i < |r.meters| ==> r.meters[i].backend == BackendOf(useGL)
    ensures r.vis == BV.SetUseGL(s.vis, useGL)
    ensures r.meters == Layout(s.frameWidth, s.frameHeight, s.vis.vertical, useGL, s.screenScale,
                               |s.vis.channelNumbers|)
    ensures r == s.(vis := r.vis, meters := r.meters)
  {
    Relayout(s.(vis := BV.SetUseGL(s.vis, useGL)))
  }

  // ---------------------------------------------------------------------
  // Decay while no player is attached
  // ---------------------------------------------------------------------

  /** A value brought down at `rate` per second over `elapsed` seconds, floored at 0. */
  function Falloff(value: real, elapsed: real, rate: real): (r: real)
    ensures r >= 0.0
    ensures r > 0.0 ==> r == value - elapsed * rate
    ensures elapsed >= 0.0 && rate >= 0.0 && value >= 0.0 ==> r <= value
  {
    var x := value - elapsed * rate;
    if x < 0.0 then 0.0 else x
  }

  /** Two falloffs in a row are one falloff over the summed interval. */
  lemma FalloffComposes(value: real, a: real, b: real, rate: real)
    requires a >= 0.0 && b >= 0.0 && rate >= 0.0
    ensures Falloff(Falloff(value, a, rate), b, rate) == Falloff(value, a + b, rate)
  {
    assert (a + b) * rate == a * rate + b * rate;
    assert b * rate >= 0.0;
  }

  /** A peak at or above the level stays at or above it while both fall. */
  lemma PeakStaysAboveLevel(peak: real, level: real, elapsed: real)
    requires peak >= level && elapsed >= 0.0
    ensures Falloff(peak, elapsed, PeakFalloffPerSec) >= Falloff(level, elapsed, LevelFalloffPerSec)
  {}

  /** One sub-meter's decay: the level always falls, the peak only when
      peaks are shown; nothing else about the sub-meter changes. */
  function DecayMeter(sm: SubMeter, elapsed: real, showsPeaks: bool): (r: SubMeter)
    ensures r.meter.level == Falloff(sm.meter.level, elapsed, LevelFalloffPerSec)
    ensures r.meter.peakLevel == if showsPeaks then Falloff(sm.meter.peakLevel, elapsed, PeakFalloffPerSec)
                                 else sm.meter.peakLevel
    ensures r.(meter := r.meter.(level := sm.meter.level, peakLevel := sm.meter.peakLevel)) == sm
    ensures elapsed >= 0.0 && sm.meter.level >= 0.0 ==> 0.0 <= r.meter.level <= sm.meter.level
  {
    sm.(meter := sm.meter.(
      level := Falloff(sm.meter.level, elapsed, LevelFalloffPerSec),
      peakLevel := if showsPeaks then Falloff(sm.meter.peakLevel, elapsed, PeakFalloffPerSec)
                   else sm.meter.peakLevel))
  }

  function DecayAll(ms: seq<SubMeter>, elapsed: real, showsPeaks: bool): (r: seq<SubMeter>)
    ensures |r| == |ms|
    ensures forall i :: 0 <= i < |ms| ==> r[i] == DecayMeter(ms[i], elapsed, showsPeaks)
  {
    seq(|ms|, i requires 0 <= i < |ms| => DecayMeter(ms[i], elapsed, showsPeaks))
  }

  /** The value that keeps the timer alive: the peak when peaks are shown, else the level. */
  function Shown(sm: SubMeter, showsPeaks: bool): real {
    if showsPeaks then sm.meter.peakLevel else sm.meter.level
  }

  /** The running maximum of the shown values, seeded with `acc`. */
  function MaxShown(ms: seq<SubMeter>, showsPeaks: bool, acc: real): (r: real)
    ensures r >= acc
    ensures forall i :: 0 <= i < |ms| ==> Shown(ms[i], showsPeaks) <= r
    ensures r == acc || exists i :: 0 <= i < |ms| && r == Shown(ms[i], showsPeaks)
    decreases |ms|
  {
    if |ms| == 0 then acc
    else
      var c := Shown(ms[0], showsPeaks);
      MaxShown(ms[1..], showsPeaks, if c > acc then c else acc)
  }

  /** One display-link tick with no player: every level (and, when shown,
      every peak) falls by the time since the last tick; once every shown
      value is 0 the timer is stopped. */
  function DecayTick(s: State, now: real): (r: State)
    requires s.vis.player.None?
    ensures |r.meters| == |s.meters|
    ensures forall i :: 0 <= i < |s.meters| ==>
              r.meters[i].frame == s.meters[i].frame && r.meters[i].backend == s.meters[i].backend &&
              r.meters[i].meter.level == Falloff(s.meters[i].meter.level, now - s.peakFalloffLastFire, LevelFalloffPerSec) &&
              r.meters[i].meter.peakLevel ==
                (if s.showsPeaks then Falloff(s.meters[i].meter.peakLevel, now - s.peakFalloffLastFire, PeakFalloffPerSec)
                 else s.meters[i].meter.peakLevel)
    ensures !r.vis.timerActive <==>
              !s.vis.timerActive || forall i :: 0 <= i < |r.meters| ==> Shown(r.meters[i], s.showsPeaks) == 0.0
    ensures r.vis.(timerActive := s.vis.timerActive) == s.vis
    ensures r.peakFalloffLastFire == now && r.showsPeaks == s.showsPeaks
    ensures Consistent(s) ==> Consistent(r)
    ensures r == s.(meters := r.meters, vis := r.vis, peakFalloffLastFire := now)
    ensures forall i :: 0 <= i < |s.meters| ==>
              r.meters[i] == s.meters[i].(meter := s.meters[i].meter.(level := r.meters[i].meter.level,
                                                                     peakLevel := r.meters[i].meter.peakLevel))
  {
    var ms := DecayAll(s.meters, now - s.peakFalloffLastFire, s.showsPeaks);
    var stop := MaxShown(ms, s.showsPeaks, -1.0) <= 0.0;
    assert stop <==> forall i :: 0 <= i < |ms| ==> Shown(ms[i], s.showsPeaks) == 0.0 by {
      forall i | 0 <= i < |ms| ensures Shown(ms[i], s.showsPeaks) >= 0.0 {}
    }
    s.(meters := ms,
       vis := if stop then BV.StopTimer(s.vis) else s.vis,
       peakFalloffLastFire := now)
  }

  lemma DecayMeterComposes(sm: SubMeter, a: real, b: real, showsPeaks: bool)
    requires a >= 0.0 && b >= 0.0
    ensures DecayMeter(DecayMeter(sm, a, showsPeaks), b, showsPeaks) == DecayMeter(sm, a + b, showsPeaks)
  {
    FalloffComposes(sm.meter.level, a, b, LevelFalloffPerSec);
    FalloffComposes(sm.meter.peakLevel, a, b, PeakFalloffPerSec);
  }

  /** The meters a decay tick leaves are the previous ones decayed over the
      time since the last fire, and the tick moves that clock to `now`. */
  lemma DecayTickMeters(s: State, now: real)
    requires s.vis.player.None?
    ensures DecayTick(s, now).meters == DecayAll(s.meters, now - s.peakFalloffLastFire, s.showsPeaks)
    ensures DecayTick(s, now).vis.player.None? && DecayTick(s, now).showsPeaks == s.showsPeaks
    ensures DecayTick(s, now).peakFalloffLastFire == now
  {}

  /** Two decay ticks, `a` and then `b` seconds apart, leave the meters
      where a single tick over `a + b` seconds would. */
  lemma DecayAllComposes(ms: seq<SubMeter>, a: real, b: real, c: real, showsPeaks: bool)
    requires a >= 0.0 && b >= 0.0 && c == a + b
    ensures DecayAll(DecayAll(ms, a, showsPeaks), b, showsPeaks) == DecayAll(ms, c, showsPeaks)
  {
    var lhs := DecayAll(DecayAll(ms, a, showsPeaks), b, showsPeaks);
    var rhs := DecayAll(ms, c, showsPeaks);
    forall i | 0 <= i < |rhs| ensures lhs[i] == rhs[i] {
      DecayMeterComposes(ms[i], a, b, showsPeaks);
    }
  }

  // ---------------------------------------------------------------------
  // Driven ticks while a player is attached
  // ---------------------------------------------------------------------

  /** The player's meters for one channel, in decibels. */
  datatype Reading = Reading(averagePower: real, peakPower: real)

  /** A sub-meter set from a reading: level from the average power, peak
      from the peak power when peaks are shown and 0 otherwise. */
  function Drive(sm: SubMeter, rd: Reading, table: MeterTable.Table, showsPeaks: bool): (r: SubMeter)
    requires MeterTable.Shaped(table)
    ensures r.meter.level == MeterTable.ValueAt(table, rd.averagePower)
    ensures r.meter.peakLevel == (if showsPeaks then MeterTable.ValueAt(table, rd.peakPower) else 0.0)
    ensures r.frame == sm.frame && r.backend == sm.backend && r.meter.numLights == sm.meter.numLights
    ensures r == sm.(meter := sm.meter.(level := r.meter.level, peakLevel := r.meter.peakLevel))
  {
    sm.(meter := sm.meter.(
      level := MeterTable.ValueAt(table, rd.averagePower),
      peakLevel := if showsPeaks then MeterTable.ValueAt(table, rd.peakPower) else 0.0))
  }

  /** A driven sub-meter keeps nothing of its previous level or peak, so
      residual decay never blends into the first tick after reattaching. */
  lemma DriveForgetsPrevious(sm: SubMeter, level: real, peak: real, rd: Reading, table: MeterTable.Table, showsPeaks: bool)
    requires MeterTable.Shaped(table)
    ensures Drive(sm.(meter := sm.meter.(level := level, peakLevel := peak)), rd, table, showsPeaks)
         == Drive(sm, rd, table, showsPeaks)
  {}

  /** Position `j` is the last loop position before the break that writes
      sub-meter `channels[j]`. */
  predicate LastWriter(channels: seq<int>, j: int)
    requires 0 <= j < |channels|
  {
    forall j2 :: j < j2 < BV.Reached(channels) ==> channels[j2] != channels[j]
  }

  /** The channel loop from position `i`: position k reads the player's
      meters for channel k and writes sub-meter `channels[k]`. */
  function DriveFrom(ms: seq<SubMeter>, channels: seq<int>, readings: seq<Reading>,
                     table: MeterTable.Table, showsPeaks: bool, i: nat): (r: seq<SubMeter>)
    requires MeterTable.Shaped(table)
    requires i <= BV.Reached(channels)
    requires BV.ReachedInRange(channels, |ms|)
    requires |readings| >= |channels|
    ensures |r| == |ms|
    ensures forall k :: 0 <= k < |ms| && (forall j :: i <= j < BV.Reached(channels) ==> channels[j] != k) ==>
              r[k] == ms[k]
    ensures forall j :: i <= j < BV.Reached(channels) && LastWriter(channels, j) ==>
              r[channels[j]] == Drive(ms[channels[j]], readings[j], table, showsPeaks)
    decreases BV.Reached(channels) - i
  {
    if i == BV.Reached(channels) then ms
    else
      var c := channels[i];
      DriveFrom(ms[c := Drive(ms[c], readings[i], table, showsPeaks)], channels, readings, table, showsPeaks, i + 1)
  }

  /** One display-link tick with a player: the channel loop; the timer and
      the falloff clock are untouched. */
  function DrivenTick(s: State, readings: seq<Reading>): (r: State)
    requires s.vis.player.Some? && MeterTable.Shaped(s.vis.meterTable)
    requires BV.ReachedInRange(s.vis.channelNumbers, |s.meters|)
    requires |readings| >= |s.vis.channelNumbers|
    ensures |r.meters| == |s.meters|
    ensures r.vis == s.vis && r.peakFalloffLastFire == s.peakFalloffLastFire
    ensures forall j :: 0 <= j < BV.Reached(s.vis.channelNumbers) && LastWriter(s.vis.channelNumbers, j) ==>
              r.meters[s.vis.channelNumbers[j]] ==
                Drive(s.meters[s.vis.channelNumbers[j]], readings[j], s.vis.meterTable, s.showsPeaks)
    ensures forall k :: (0 <= k < |s.meters| &&
              forall j :: 0 <= j < BV.Reached(s.vis.channelNumbers) ==> s.vis.channelNumbers[j] != k) ==>
              r.meters[k] == s.meters[k]
    ensures r == s.(meters := r.meters)
  {
    s.(meters := DriveFrom(s.meters, s.vis.channelNumbers, readings, s.vis.meterTable, s.showsPeaks, 0))
  }

  /** When `refresh` runs without trapping: the decay path needs nothing;
      the driven path subscripts the sub-meters with every channel index
      it looks at, including the one that ends the loop, before testing it. */
  predicate RefreshSafe(s: State, readings: seq<Reading>) {
    MeterTable.Shaped(s.vis.meterTable) &&
    (s.vis.player.Some? ==>
       BV.SubscriptsInRange(s.vis.channelNumbers, |s.meters|) && |readings| >= |s.vis.channelNumbers|)
  }

  /** `refresh`, as written. */
  function Refresh(s: State, now: real, readings: seq<Reading>): (r: State)
    requires RefreshSafe(s, readings)
    ensures r.vis.player == s.vis.player && r.vis.channelNumbers == s.vis.channelNumbers
    ensures |r.meters| == |s.meters|
    ensures s.vis.player.Some? ==> r.vis.timerActive == s.vis.timerActive
    ensures s.vis.player.None? ==> r.peakFalloffLastFire == now
    ensures Consistent(s) ==> Consistent(r)
    ensures s.vis.player.None? ==> r == DecayTick(s, now)
    ensures s.vis.player.Some? ==> BV.ReachedInRange(s.vis.channelNumbers, |s.meters|) && r == DrivenTick(s, readings)
  {
    if s.vis.player.None? then DecayTick(s, now)
    else
      BV.SubscriptsCoverReached(s.vis.channelNumbers, |s.meters|);
      DrivenTick(s, readings)
  }

  /** The `channelIndex >= count` guard comes after the subscript it should
      protect: with two sub-meters and channels [0, 2], the loop would stop
      at position 1, but reads sub-meter 2 first. */
  lemma GuardAfterSubscript()
    ensures BV.Reached([0, 2]) == 1
    ensures !BV.SubscriptsInRange([0, 2], 2)
    ensures BV.ReachedInRange([0, 2], 2)
  {
    assert BV.Breaks(2, 2);
    assert BV.ReachedFrom([0, 2], 1) == 1;
  }

  /** `refresh` with the guards tested before the subscript. */
  predicate GuardedRefreshSafe(s: State, readings: seq<Reading>) {
    MeterTable.Shaped(s.vis.meterTable) &&
    (s.vis.player.Some? ==>
       BV.ReachedInRange(s.vis.channelNumbers, |s.meters|) && |readings| >= |s.vis.channelNumbers|)
  }

  function GuardedRefresh(s: State, now: real, readings: seq<Reading>): (r: State)
    requires GuardedRefreshSafe(s, readings)
    ensures r.vis.player == s.vis.player && |r.meters| == |s.meters|
    ensures Consistent(s) ==> Consistent(r)
  {
    if s.vis.player.None? then DecayTick(s, now) else DrivenTick(s, readings)
  }

  /** With the guards first, a consistent meter never traps on any channel
      list whose looked-at indices are non-negative: one reading per
      channel is all a tick needs. */
  lemma GuardedRefreshNeedsOnlyNonNegative(s: State, now: real, readings: seq<Reading>)
    requires Consistent(s)
    requires forall k :: 0 <= k < BV.Reached(s.vis.channelNumbers) ==> s.vis.channelNumbers[k] >= 0
    requires |readings| >= |s.vis.channelNumbers|
    ensures GuardedRefreshSafe(s, readings)
  {}

  // ---------------------------------------------------------------------
  // Attaching and detaching the player
  // ---------------------------------------------------------------------

  /** `setPlayer`, as written: the base class has already stored the new
      player when the detach test runs, so the falloff clock is never reset. */
  function SetPlayer(s: State, p: Option<nat>, now: real): (r: State)
    requires MeterTable.Shaped(s.vis.meterTable)
    ensures r.vis == BV.SetPlayer(s.vis, p)
    ensures r.peakFalloffLastFire == s.peakFalloffLastFire
    ensures BV.ResetsChannels(s.vis, p) ==> Consistent(r)
    ensures !BV.ResetsChannels(s.vis, p) ==> r.meters == s.meters
    ensures BV.ResetsChannels(s.vis, p) ==>
              r.meters == Layout(s.frameWidth, s.frameHeight, s.vis.vertical, s.vis.useGL, s.screenScale, p.value)
    ensures r == s.(vis := r.vis, meters := r.meters)
  {
    var s1 := s.(vis := BV.SetPlayer(s.vis, p));
    var s2 := if BV.ResetsChannels(s.vis, p) then Relayout(s1) else s1;
    if s2.vis.player.Some? && p.None? then s2.(peakFalloffLastFire := now) else s2
  }

  /** `setPlayer` with the detach test made before the base class stores
      the player: detaching restarts the falloff clock. */
  function SetPlayerSnapshot(s: State, p: Option<nat>, now: real): (r: State)
    requires MeterTable.Shaped(s.vis.meterTable)
    ensures r.vis == BV.SetPlayer(s.vis, p)
    ensures s.vis.player.Some? && p.None? ==> r.peakFalloffLastFire == now
    ensures !(s.vis.player.Some? && p.None?) ==> r.peakFalloffLastFire == s.peakFalloffLastFire
    ensures r.meters == SetPlayer(s, p, now).meters
    ensures r == SetPlayer(s, p, now).(peakFalloffLastFire := r.peakFalloffLastFire)
  {
    var s1 := s.(vis := BV.SetPlayer(s.vis, p));
    var s2 := if BV.ResetsChannels(s.vis, p) then Relayout(s1) else s1;
    if s.vis.player.Some? && p.None? then s2.(peakFalloffLastFire := now) else s2
  }

  /** With the snapshot, the first decay tick after a detach at `t0` brings
      each level down by exactly the time since `t0`. */
  lemma DecayAfterDetach(s: State, t0: real, t1: real, i: nat)
    requires MeterTable.Shaped(s.vis.meterTable) && s.vis.player.Some?
    requires t0 <= t1 && i < |s.meters|
    ensures var d := DecayTick(SetPlayerSnapshot(s, None, t0), t1);
      i < |d.meters| &&
      d.meters[i].meter.level == Falloff(s.meters[i].meter.level, t1 - t0, LevelFalloffPerSec)
  {}

  /** As written, a meter detached at t = 1000 s whose clock was never
      started loses the full 1000.5 s on the first decay tick at 1000.5 s
      and drops to 0 at once, where half a second of falloff leaves 0.6. */
  lemma StaleFalloffClock()
    ensures var s := StaleExample();
      DecayTick(SetPlayer(s, None, 1000.0), 1000.5).meters[0].meter.level == 0.0 &&
      DecayTick(SetPlayerSnapshot(s, None, 1000.0), 1000.5).meters[0].meter.level == 0.6
  {
    var s := StaleExample();
    assert DecayTick(SetPlayer(s, None, 1000.0), 1000.5).meters[0].meter.level
        == Falloff(1.0, 1000.5, LevelFalloffPerSec);
  }

  /** A mono player attached at start-up, with a full-scale level. */
  function StaleExample(): (s: State)
    ensures s.vis.player == Some(1) && |s.meters| == 1 && s.meters[0].meter.level == 1.0
    ensures s.peakFalloffLastFire == 0.0 && MeterTable.Shaped(s.vis.meterTable)
  {
    var v := BV.Visualizer(Some(1), true, 1, 0, [0], false, false, MeterTable.Table(0.0, 0.0, []));
    var m := LM.Meter(LightsPerMeter, 1.0, 1.0, LM.DefaultThresholds(LM.CoreGraphics), false, true, 0.0);
    State(v, 100.0, 20.0, 2.0, [SubMeter(LM.Rect(0.0, 0.0, 100.0, 20.0), LM.CoreGraphics, m)], true, 0.0)
  }
}

=== FILE: CircleVisualizer.dfy ===
/** The circle visualizer: a history of 19 power values per channel,
    drawn as up to 18 segments around a circle whose start angle turns by
    one degree per frame. Each frame smears the history (see `Shift`),
    stores the newest power at entry 0, and grows the drawn arc by one
    segment until all 18 are shown. */
module CircleVisualizer {
  import opened Wrappers
  import MeterTable
  import BV = BaseVisualizer

  const SegCount: int := 18
  /** Entries per history row: one more than the segment count. */
  const RowLength: int := SegCount + 1
  const Radius: real := 80.0

  datatype State = State(
    vis: BV.Visualizer,
    degreePerSeg: int,
    aniSeg: int,
    angleBias: int,
    power: seq<seq<real>>)

  predicate RowsShaped(power: seq<seq<real>>) {
    forall j :: 0 <= j < |power| ==> |power[j]| == RowLength
  }

  /** What every operation keeps: rows of 19 entries, the counters in the
      ranges their updates allow, and 20 degrees per segment. */
  predicate Valid(c: State) {
    RowsShaped(c.power) && 0 <= c.aniSeg <= SegCount && 0 <= c.angleBias <= 360 &&
    c.degreePerSeg == 20 && MeterTable.Shaped(c.vis.meterTable)
  }

  /** `init(frame:)`: the overriding `doInit` only sets the degrees per
      segment, so the base class's orientation and layout steps never run
      and the history starts empty. */
  function Default(pow: (real, real) -> real): (c: State)
    requires MeterTable.Amp(pow, -80.0) != 1.0
    ensures Valid(c)
    ensures c.degreePerSeg * SegCount == 360
    ensures c.power == [] && c.aniSeg == 0 && c.angleBias == 0
    ensures c.vis == BV.Initial(pow) && !c.vis.vertical
  {
    State(BV.Initial(pow), 360 / SegCount, 0, 0, [])
  }

  function ZeroRows(n: nat): (r: seq<seq<real>>)
    ensures |r| == n && RowsShaped(r)
    ensures forall j, e :: 0 <= j < n && 0 <= e < RowLength ==> r[j][e] == 0.0
  {
    seq(n, _ => seq(RowLength, _ => 0.0))
  }

  /** `setChannels`: one zero row appended per channel; existing rows are kept. */
  function SetChannels(c: State, channels: seq<int>): (r: State)
    ensures r.vis == BV.SetChannels(c.vis, channels)
    ensures |r.power| == |c.power| + |channels|
    ensures r.power[..|c.power|] == c.power
    ensures r.power[|c.power|..] == ZeroRows(|channels|)
    ensures Valid(c) ==> Valid(r)
    ensures r == c.(vis := r.vis, power := r.power)
  {
    c.(vis := BV.SetChannels(c.vis, channels), power := c.power + ZeroRows(|channels|))
  }

  function SetUseGL(c: State, useGL: bool): (r: State)
    ensures r.vis == BV.SetUseGL(c.vis, useGL) && r.power == c.power
    ensures r == c.(vis := r.vis)
  {
    c.(vis := BV.SetUseGL(c.vis, useGL))
  }

  /** `setPlayer`: the base behaviour, whose channel reset goes through the
      overriding `setChannels` and so appends rows. */
  function SetPlayer(c: State, p: Option<nat>): (r: State)
    ensures r.vis == BV.SetPlayer(c.vis, p)
    ensures BV.ResetsChannels(c.vis, p) ==> |r.power| == |c.power| + p.value
    ensures BV.ResetsChannels(c.vis, p) ==> r.power == c.power + ZeroRows(p.value)
    ensures !BV.ResetsChannels(c.vis, p) ==> r.power == c.power
    ensures Valid(c) ==> Valid(r)
    ensures r == c.(vis := r.vis, power := r.power)
  {
    var v := BV.SetPlayer(c.vis, p);
    c.(vis := v, power := c.power + ZeroRows(if BV.ResetsChannels(c.vis, p) then p.value else 0))
  }

  // ---------------------------------------------------------------------
  // The history smear
  // ---------------------------------------------------------------------

  /** One pass of the outer shift loop: entry i + 1 of each of the first
      `count` rows takes entry i. */
  function CopyColumn(power: seq<seq<real>>, count: nat, i: int): (r: seq<seq<real>>)
    requires RowsShaped(power) && count <= |power| && 0 <= i < SegCount - 1
    ensures |r| == |power| && RowsShaped(r)
    ensures forall j :: 0 <= j < |power| ==> r[j] == if j < count then power[j][i + 1 := power[j][i]] else power[j]
  {
    seq(|power|, j requires 0 <= j < |power| => if j < count then power[j][i + 1 := power[j][i]] else power[j])
  }

  /** The shift loop from pass `i` on, as written: the copies run from the
      front, so each pass copies the value the previous pass just wrote. */
  function ShiftFrom(power: seq<seq<real>>, count: nat, i: int): (r: seq<seq<real>>)
    requires RowsShaped(power) && count <= |power| && 0 <= i <= SegCount - 1
    ensures |r| == |power| && RowsShaped(r)
    ensures forall j :: count <= j < |power| ==> r[j] == power[j]
    ensures forall j, e :: 0 <= j < count && 0 <= e <= i ==> r[j][e] == power[j][e]
    ensures forall j, e :: 0 <= j < count && i <= e < SegCount ==> r[j][e] == power[j][i]
    ensures forall j :: 0 <= j < count ==> r[j][SegCount] == power[j][SegCount]
    decreases SegCount - 1 - i
  {
    if i == SegCount - 1 then power
    else ShiftFrom(CopyColumn(power, count, i), count, i + 1)
  }

  /** The whole shift loop: entries 0 to 17 of each of the first `count`
      rows all end up holding entry 0, entry 18 is never written, and the
      other rows are untouched. The history is smeared, not shifted. */
  function Shift(power: seq<seq<real>>, count: nat): (r: seq<seq<real>>)
    requires RowsShaped(power) && count <= |power|
    ensures |r| == |power| && RowsShaped(r)
    ensures forall j :: count <= j < |power| ==> r[j] == power[j]
    ensures forall j, e :: 0 <= j < count && 0 <= e < SegCount ==> r[j][e] == power[j][0]
    ensures forall j :: 0 <= j < count ==> r[j][SegCount] == power[j][SegCount]
  {
    ShiftFrom(power, count, 0)
  }

  /** A shift that moves every entry one place back, which is what a
      history display suggests; it is not what the loop does. */
  function ShiftBack(row: seq<real>): (r: seq<real>)
    requires |row| == RowLength
    ensures |r| == RowLength && r[0] == row[0]
    ensures forall e :: 0 < e < SegCount ==> r[e] == row[e - 1]
  {
    [row[0]] + row[..SegCount - 1] + [row[SegCount]]
  }

  /** On a row holding distinct values the smear and the one-place shift
      already differ at entry 2. */
  lemma SmearIsNotShift()
    ensures var row := seq(RowLength, e => e as real);
      Shift([row], 1)[0][2] == 0.0 && ShiftBack(row)[2] == 1.0
  {
    var row := seq(RowLength, e => e as real);
    assert row[0] == 0.0 && row[1] == 1.0;
  }

  // ---------------------------------------------------------------------
  // Feeding the newest power
  // ---------------------------------------------------------------------

  /** The channel loop from position `i`: the power read for channel
      `channels[k]` goes to entry 0 of row `channels[k]`. */
  function FeedFrom(power: seq<seq<real>>, channels: seq<int>, readings: seq<real>,
                    table: MeterTable.Table, i: nat): (r: seq<seq<real>>)
    requires RowsShaped(power) && MeterTable.Shaped(table)
    requires i <= BV.Reached(channels)
    requires BV.ReachedInRange(channels, |power|)
    requires |readings| >= |channels|
    ensures |r| == |power| && RowsShaped(r)
    ensures forall j, e :: 0 <= j < |power| && 0 < e < RowLength ==> r[j][e] == power[j][e]
    ensures forall k :: i <= k < BV.Reached(channels) ==>
              r[channels[k]][0] == MeterTable.ValueAt(table, readings[channels[k]])
    ensures forall j :: (0 <= j < |power| && forall k :: i <= k < BV.Reached(channels) ==> channels[k] != j) ==>
              r[j] == power[j]
    decreases BV.Reached(channels) - i
  {
    if i == BV.Reached(channels) then power
    else
      var c := channels[i];
      FeedFrom(power[c := power[c][0 := MeterTable.ValueAt(table, readings[c])]], channels, readings, table, i + 1)
  }

  /** Every write depends only on the channel it names, so feeding the same
      readings a second time changes nothing. */
  lemma FeedIdempotent(power: seq<seq<real>>, channels: seq<int>, readings: seq<real>,
                       table: MeterTable.Table)
    requires RowsShaped(power) && MeterTable.Shaped(table)
    requires BV.ReachedInRange(channels, |power|)
    requires |readings| >= |channels|
    ensures var once := FeedFrom(power, channels, readings, table, 0);
            FeedFrom(once, channels, readings, table, 0) == once
  {
    var once := FeedFrom(power, channels, readings, table, 0);
    var twice := FeedFrom(once, channels, readings, table, 0);
    forall j | 0 <= j < |once| ensures twice[j] == once[j] {
      if exists k :: 0 <= k < BV.Reached(channels) && channels[k] == j {
        var k :| 0 <= k < BV.Reached(channels) && channels[k] == j;
        assert twice[j][0] == once[j][0];
        assert forall e :: 0 < e < RowLength ==> twice[j][e] == once[j][e];
      }
    }
  }

  // ---------------------------------------------------------------------
  // Drawing
  // ---------------------------------------------------------------------

  /** One drawn segment: the outer polyline's start and end angle (degrees,
      before the quarter-turn offset) and its mid-point radius; the inner
      dot's angles and radius. */
  datatype Segment = Segment(
    startDeg: int, endDeg: int, midRadius: real,
    innerStartDeg: int, innerEndDeg: int, innerRadius: real)

  function SegmentAt(power: seq<seq<real>>, degreePerSeg: int, angleBias: int, i: int): (s: Segment)
    requires |power| >= 2 && RowsShaped(power) && 0 <= i < SegCount
    ensures s.endDeg - s.startDeg == degreePerSeg && s.innerEndDeg - s.innerStartDeg == degreePerSeg
    ensures s.startDeg == i * degreePerSeg + angleBias && s.innerStartDeg == i * degreePerSeg - angleBias
    ensures 0.0 <= power[0][i] <= 1.0 ==> Radius <= s.midRadius <= 2.0 * Radius
    ensures 0.0 <= power[1][i] <= 1.0 ==> 0.0 <= s.innerRadius <= Radius
  {
    Segment(i * degreePerSeg + angleBias, (i + 1) * degreePerSeg + angleBias, Radius + 80.0 * power[0][i],
            i * degreePerSeg - angleBias, (i + 1) * degreePerSeg - angleBias, Radius - 80.0 * power[1][i])
  }

  /** The segments of one frame: the first `aniSeg`, outer from row 0 and
      inner from row 1, turning in opposite directions with `angleBias`. */
  function Segments(power: seq<seq<real>>, degreePerSeg: int, aniSeg: int, angleBias: int): (r: seq<Segment>)
    requires RowsShaped(power) && 0 <= aniSeg <= SegCount && (aniSeg > 0 ==> |power| >= 2)
    ensures |r| == aniSeg
    ensures forall i :: 0 <= i < aniSeg ==> r[i] == SegmentAt(power, degreePerSeg, angleBias, i)
  {
    seq(aniSeg, i requires 0 <= i < aniSeg => SegmentAt(power, degreePerSeg, angleBias, i))
  }

  /** Consecutive segments join: each starts where the previous one ends. */
  lemma SegmentsJoin(power: seq<seq<real>>, degreePerSeg: int, aniSeg: int, angleBias: int, i: int)
    requires RowsShaped(power) && 0 <= aniSeg <= SegCount && (aniSeg > 0 ==> |power| >= 2)
    requires 0 <= i && i + 1 < aniSeg
    ensures var r := Segments(power, degreePerSeg, aniSeg, angleBias);
      r[i].endDeg == r[i + 1].startDeg && r[i].innerEndDeg == r[i + 1].innerStartDeg
  {}

  /** One frame's growth of the drawn arc: one more segment until all are drawn. */
  function AdvanceAniSeg(a: int): (r: int)
    ensures 0 <= a <= SegCount ==> 0 <= r <= SegCount && (r == a + 1 <==> a < SegCount) && (r == a <==> a == SegCount)
  {
    if a < SegCount then a + 1 else a
  }

  /** One frame's rotation: a step around the 361 values 0, 1, ..., 360. */
  function AdvanceAngleBias(b: int): (r: int)
    ensures 0 <= b <= 360 ==> 0 <= r <= 360 && r == (b + 1) % 361
  {
    if b < 360 then b + 1 else 0
  }

  /** `aniSeg` after `k` frames. */
  function AniSegAfter(a: int, k: nat): int
    decreases k
  {
    if k == 0 then a else AniSegAfter(AdvanceAniSeg(a), k - 1)
  }

  /** `angleBias` after `k` frames. */
  function AngleBiasAfter(b: int, k: nat): int
    decreases k
  {
    if k == 0 then b else AngleBiasAfter(AdvanceAngleBias(b), k - 1)
  }

  /** The drawn arc grows by one segment per frame and stops at 18. */
  lemma {:induction false} AniSegGrows(a: int, k: nat)
    requires 0 <= a <= SegCount
    ensures AniSegAfter(a, k) == if a + k < SegCount then a + k else SegCount
    decreases k
  {
    if k > 0 {
      AniSegGrows(AdvanceAniSeg(a), k - 1);
    }
  }

  /** The rotation counts 0, 1, ..., 360 and wraps to 0: 361 values. */
  lemma {:induction false} AngleBiasCycles(b: int, k: nat)
    requires 0 <= b <= 360
    ensures AngleBiasAfter(b, k) == (b + k) % 361
    decreases k
  {
    if k > 0 {
      AngleBiasCycles(AdvanceAngleBias(b), k - 1);
      assert AdvanceAngleBias(b) == (b + 1) % 361;
    }
  }

  datatype Frame = Frame(state: State, segments: seq<Segment>)

  /** Row `j` is named by a position the channel loop processes. */
  predicate Named(channels: seq<int>, j: int) {
    exists k :: 0 <= k < BV.Reached(channels) && channels[k] == j
  }

  /** When a frame can be drawn without trapping: the shift loop indexes
      the first `count` rows, the feed loop rows given by the looked-at
      channel indices, and the segment loop rows 0 and 1. */
  predicate DrawSafe(c: State, readings: seq<real>) {
    c.vis.player.Some? ==>
      |c.vis.channelNumbers| <= |c.power| &&
      BV.ReachedInRange(c.vis.channelNumbers, |c.power|) &&
      |readings| >= |c.vis.channelNumbers| &&
      (c.aniSeg > 0 ==> |c.power| >= 2)
  }

  /** `draw`: nothing changes without a player; with one, the history is
      smeared, fed, drawn, and both counters advance. */
  function Draw(c: State, readings: seq<real>): (f: Frame)
    requires Valid(c) && DrawSafe(c, readings)
    ensures Valid(f.state)
    ensures c.vis.player.None? ==> f.state == c && f.segments == []
    ensures c.vis.player.Some? ==>
              |f.segments| == c.aniSeg &&
              f.state.aniSeg == AdvanceAniSeg(c.aniSeg) &&
              f.state.angleBias == AdvanceAngleBias(c.angleBias) &&
              f.state.vis == c.vis && |f.state.power| == |c.power|
    ensures c.vis.player.Some? ==>
              forall k :: 0 <= k < BV.Reached(c.vis.channelNumbers) ==>
                f.state.power[c.vis.channelNumbers[k]][0] ==
                  MeterTable.ValueAt(c.vis.meterTable, readings[c.vis.channelNumbers[k]])
    ensures c.vis.player.Some? ==>
              forall j, e :: 0 <= j < |c.vis.channelNumbers| && 0 < e < SegCount ==>
                f.state.power[j][e] == c.power[j][0]
    ensures c.vis.player.Some? ==>
              forall j, e :: |c.vis.channelNumbers| <= j < |c.power| && 0 < e < RowLength ==>
                f.state.power[j][e] == c.power[j][e]
    ensures c.vis.player.Some? ==>
              forall j :: 0 <= j < |c.power| ==> f.state.power[j][SegCount] == c.power[j][SegCount]
    ensures c.vis.player.Some? ==>
              forall j :: 0 <= j < |c.power| && !Named(c.vis.channelNumbers, j) ==> f.state.power[j][0] == c.power[j][0]
    ensures c.vis.player.Some? ==>
              forall j :: |c.vis.channelNumbers| <= j < |c.power| && !Named(c.vis.channelNumbers, j) ==>
                f.state.power[j] == c.power[j]
    ensures c.vis.player.Some? ==> f.segments == Segments(f.state.power, c.degreePerSeg, c.aniSeg, c.angleBias)
  {
    if c.vis.player.None? then Frame(c, [])
    else
      var count := |c.vis.channelNumbers|;
      var smeared := Shift(c.power, count);
      var fed := FeedFrom(smeared, c.vis.channelNumbers, readings, c.vis.meterTable, 0);
      var segs := Segments(fed, c.degreePerSeg, c.aniSeg, c.angleBias);
      Frame(c.(power := fed, aniSeg := AdvanceAniSeg(c.aniSeg), angleBias := AdvanceAngleBias(c.angleBias)), segs)
  }

  /** A mono player on a fresh circle visualizer: one channel matches the
      default channel list, so no row is ever added and the first frame
      would index an empty history. */
  lemma MonoPlayerCannotDraw(pow: (real, real) -> real, readings: seq<real>)
    requires MeterTable.Amp(pow, -80.0) != 1.0
    ensures var c := SetPlayer(Default(pow), Some(1));
      c.vis.player == Some(1) && c.power == [] && !DrawSafe(c, readings)
  {}

  /** A stereo player gets two rows and every frame after it can be drawn. */
  lemma StereoPlayerDraws(pow: (real, real) -> real, readings: seq<real>)
    requires MeterTable.Amp(pow, -80.0) != 1.0 && |readings| >= 2
    ensures var c := SetPlayer(Default(pow), Some(2));
      |c.power| == 2 && DrawSafe(c, readings) && DrawSafe(Draw(c, readings).state, readings)
  {
    var c := SetPlayer(Default(pow), Some(2));
    assert c.vis.channelNumbers == BV.Channels(2);
    assert BV.ReachedInRange(c.vis.channelNumbers, 2);
  }
}

=== FILE: LevelMeter.dfy ===
/** The drawing computation of one level meter, with the fill, stroke and
    OpenGL calls replaced by a description of what is drawn: a list of
    bands (continuous mode, no lights) or a list of lights, each with its
    rect, its colour threshold and its intensity. The CoreGraphics path
    (`LevelMeter.draw`) and the OpenGL path (`GLLevelMeter.drawView`) share
    this model and differ only where `Backend` says so. */
module LevelMeter {
  import MeterTable
  import SwiftInt

  datatype Color = Rgba(red: real, green: real, blue: real, alpha: real)

  const Green: Color := Rgba(0.0, 1.0, 0.0, 1.0)
  const Yellow: Color := Rgba(1.0, 1.0, 0.0, 1.0)
  const Red: Color := Rgba(1.0, 0.0, 0.0, 1.0)

  datatype ColorThreshold = ColorThreshold(maxValue: real, color: Color)

  /** CoreGraphics meters draw in `draw(_:)`, OpenGL meters in `drawView()`. */
  datatype Backend = CoreGraphics | OpenGL

  datatype Meter = Meter(
    numLights: int,
    level: real,
    peakLevel: real,
    thresholds: seq<ColorThreshold>,
    vertical: bool,
    variableLightIntensity: bool,
    scaleFactor: real)

  datatype Rect = Rect(x: real, y: real, width: real, height: real)

  /** The edge of a rect opposite its origin along the meter's axis. */
  function Top(r: Rect): real {
    r.y + r.height
  }

  /** `CGRect.insetBy(dx: d, dy: d)` for a rect whose size stays non-negative. */
  function Inset(r: Rect, d: real): (s: Rect)
    ensures s.x - r.x == d && s.y - r.y == d
    ensures s.x + s.width == r.x + r.width - d
    ensures Top(s) == Top(r) - d
  {
    Rect(r.x + d, r.y + d, r.width - 2.0 * d, r.height - 2.0 * d)
  }

  function Min(a: real, b: real): (r: real)
    ensures r <= a && r <= b && (r == a || r == b)
  {
    if a < b then a else b
  }

  predicate Ascending(t: seq<ColorThreshold>) {
    forall i, j :: 0 <= i < j < |t| ==> t[i].maxValue <= t[j].maxValue
  }

  /** The thresholds each `doInit` installs: green, yellow, red, with the
      first boundary at 0.25 (CoreGraphics) or 0.4 (OpenGL). */
  function DefaultThresholds(backend: Backend): (t: seq<ColorThreshold>)
    ensures |t| == 3 && Ascending(t)
    ensures forall i :: 0 <= i < |t| ==> 0.0 < t[i].maxValue <= 1.0
    ensures t[|t| - 1].maxValue == 1.0
    ensures t[0].maxValue == (if backend == CoreGraphics then 0.25 else 0.4) && t[1].maxValue == 0.8
    ensures t[0].color == Green && t[1].color == Yellow && t[2].color == Red
  {
    var first := if backend == CoreGraphics then 0.25 else 0.4;
    [ColorThreshold(first, Green), ColorThreshold(0.8, Yellow), ColorThreshold(1.0, Red)]
  }

  /** A meter as `init(frame:)` leaves it. An OpenGL meter takes the
      screen's scale; a CoreGraphics meter keeps scale factor 0. */
  function DefaultMeter(backend: Backend, frameWidth: real, frameHeight: real, screenScale: real): (m: Meter)
    ensures m.numLights == 0 && m.level == 0.0 && m.peakLevel == 0.0
    ensures m.variableLightIntensity
    ensures m.vertical <==> frameWidth < frameHeight
    ensures m.thresholds == DefaultThresholds(backend)
    ensures m.scaleFactor == (if backend == OpenGL then screenScale else 0.0)
  {
    Meter(0, 0.0, 0.0, DefaultThresholds(backend), frameWidth < frameHeight, true,
          if backend == OpenGL then screenScale else 0.0)
  }

  /** `LEVELMETER_CLAMP(min:x:max:)`. */
  function Clamp(lo: real, x: real, hi: real): (r: real)
    ensures lo <= hi ==> lo <= r <= hi
    ensures lo <= x <= hi ==> r == x
    ensures r == lo || r == x || r == hi
  {
    if x < lo then lo else if x > hi then hi else x
  }

  /** `compareLevelThresholds`: a three-way comparison of maxValue. */
  function CompareLevelThresholds(a: ColorThreshold, b: ColorThreshold): (r: int)
    ensures -1 <= r <= 1
    ensures r == 1 <==> a.maxValue > b.maxValue
    ensures r == -1 <==> a.maxValue < b.maxValue
    ensures r == 0 <==> a.maxValue == b.maxValue
  {
    if a.maxValue > b.maxValue then 1
    else if a.maxValue < b.maxValue then -1
    else 0
  }

  lemma CompareAntisymmetric(a: ColorThreshold, b: ColorThreshold)
    ensures CompareLevelThresholds(a, b) == -CompareLevelThresholds(b, a)
  {}

  /** The surface the meter draws on: CoreGraphics uses the view bounds,
      rotated for a horizontal meter; OpenGL scales by the screen scale and
      sets the origin's y to -1 (vertical) or 1 (horizontal). */
  function DrawBounds(backend: Backend, m: Meter, viewWidth: real, viewHeight: real): (b: Rect)
    ensures b.x == 0.0
    ensures b.width == (if m.vertical then viewWidth else viewHeight) * (if backend == OpenGL then m.scaleFactor else 1.0)
    ensures backend == CoreGraphics ==>
              b.y == 0.0 && b.height == (if m.vertical then viewHeight else viewWidth)
    ensures backend == OpenGL ==> b.y == (if m.vertical then -1.0 else 1.0)
    ensures backend == OpenGL ==>
              b.height == (if m.vertical then viewHeight else viewWidth) * m.scaleFactor
  {
    match backend
    case CoreGraphics =>
      if m.vertical then Rect(0.0, 0.0, viewWidth, viewHeight)
      else Rect(0.0, 0.0, viewHeight, viewWidth)
    case OpenGL =>
      if m.vertical then Rect(0.0, -1.0, viewWidth * m.scaleFactor, viewHeight * m.scaleFactor)
      else Rect(0.0, 1.0, viewHeight * m.scaleFactor, viewWidth * m.scaleFactor)
  }

  // ---------------------------------------------------------------------
  // Continuous mode (numLights == 0)
  // ---------------------------------------------------------------------

  /** One filled region of a continuous meter, in the colour of
      `threshold`, covering the level fractions [lo, hi] of the height. */
  datatype Band = Band(threshold: nat, lo: real, hi: real, rect: Rect)

  /** The rect the band loop fills for the fractions [lo, hi]. */
  function BandRect(bounds: Rect, lo: real, hi: real): (r: Rect)
    ensures r.x == 0.0 && r.width == bounds.width
    ensures r.y == bounds.height * lo
    ensures Top(r) == bounds.height * hi
  {
    DistributeTop(bounds.height, lo, hi);
    Rect(0.0, bounds.height * lo, bounds.width, bounds.height * (hi - lo))
  }

  lemma DistributeTop(h: real, a: real, b: real)
    ensures h * a + h * (b - a) == h * b
  {}

  /** The band loop from threshold k on, the previous band having ended at
      fraction `top`. Each band runs from `top` to min(maxValue, level); the
      loop stops after the first threshold the level lies below. */
  function BandsFrom(t: seq<ColorThreshold>, level: real, bounds: Rect, k: nat, top: real): (r: seq<Band>)
    requires k <= |t|
    ensures |r| <= |t| - k
    ensures k < |t| ==> |r| > 0
    ensures |r| > 0 ==> r[0].lo == top
    ensures forall q :: 0 <= q < |r| ==> r[q].threshold == k + q
    ensures forall q :: 0 <= q < |r| ==> r[q].rect == BandRect(bounds, r[q].lo, r[q].hi)
    ensures forall q :: 0 <= q < |r| ==> r[q].hi == Min(t[r[q].threshold].maxValue, level)
    ensures forall q :: k <= q < k + |r| - 1 ==> t[q].maxValue <= level
    ensures forall q :: 0 <= q < |r| - 1 ==> r[q + 1].lo == r[q].hi
    ensures k + |r| < |t| ==> level < t[k + |r| - 1].maxValue
    decreases |t| - k
  {
    if k == |t| then []
    else
      var value := Min(t[k].maxValue, level);
      var band := Band(k, top, value, BandRect(bounds, top, value));
      if level < t[k].maxValue then [band]
      else
        var rest := BandsFrom(t, level, bounds, k + 1, value);
        assert forall q :: 0 <= q < |rest| ==> ([band] + rest)[q + 1] == rest[q];
        [band] + rest
  }

  /** The continuous-mode bands: one per threshold in order, contiguous
      from 0, each ending at min(maxValue, level), all but the last full,
      stopping after the first threshold that the level lies below. */
  function Bands(t: seq<ColorThreshold>, level: real, bounds: Rect): (r: seq<Band>)
    ensures |t| > 0 ==> 0 < |r| <= |t|
    ensures |t| == 0 ==> r == []
    ensures |r| > 0 ==> r[0].lo == 0.0
    ensures forall q :: 0 <= q < |r| ==> r[q].threshold == q
    ensures forall q :: 0 <= q < |r| ==> r[q].rect == BandRect(bounds, r[q].lo, r[q].hi)
    ensures forall q :: 0 <= q < |r| ==> r[q].hi == Min(t[q].maxValue, level)
    ensures forall q :: 0 <= q < |r| - 1 ==> t[q].maxValue <= level
    ensures forall q :: 0 <= q < |r| - 1 ==> r[q + 1].lo == r[q].hi
    ensures |r| < |t| ==> level < t[|r| - 1].maxValue
  {
    BandsFrom(t, level, bounds, 0, 0.0)
  }

  /** The band rects tile the height without gaps or overlap: each starts
      where the previous one ends. */
  lemma BandsContiguous(t: seq<ColorThreshold>, level: real, bounds: Rect, q: int)
    requires 0 <= q < |Bands(t, level, bounds)| - 1
    ensures Bands(t, level, bounds)[q + 1].rect.y == Top(Bands(t, level, bounds)[q].rect)
  {}

  // ---------------------------------------------------------------------
  // Discrete mode (numLights > 0)
  // ---------------------------------------------------------------------

  /** The light that shows the peak: -1 when there is no peak, otherwise
      the light whose interval holds the peak, the last light for a peak
      of 1 or more. */
  function PeakLight(peak: real, n: int): (r: int)
    requires n > 0
    ensures peak <= 0.0 ==> r == -1
    ensures peak > 0.0 ==> 0 <= r < n
    ensures peak > 0.0 && r < n - 1 ==> r as real <= peak * n as real < (r + 1) as real
    ensures peak > 0.0 && r == n - 1 ==> (n - 1) as real <= peak * n as real
  {
    if peak > 0.0 then
      var p := SwiftInt.Trunc(peak * n as real);
      if p >= n then n - 1 else p
    else -1
  }

  /** The raw intensity of light i: how far the level reaches into the
      light's interval [i/n, (i+1)/n], in units of that interval. */
  function RawIntensity(level: real, i: int, n: int): (r: real)
    requires n > 0
    ensures r == level * n as real - i as real
  {
    var lightMinVal := i as real / n as real;
    var lightMaxVal := (i + 1) as real / n as real;
    IntervalWidth(i, n);
    var raw := (level - lightMinVal) / (lightMaxVal - lightMinVal);
    RawIsScaled(level, i, n, raw);
    raw
  }

  lemma IntervalWidth(i: int, n: int)
    requires n > 0
    ensures (i + 1) as real / n as real - i as real / n as real == 1.0 / n as real
    ensures 1.0 / n as real > 0.0
  {}

  lemma RawIsScaled(level: real, i: int, n: int, raw: real)
    requires n > 0
    requires (i + 1) as real / n as real - i as real / n as real == 1.0 / n as real
    requires raw == (level - i as real / n as real) / ((i + 1) as real / n as real - i as real / n as real)
    ensures raw == level * n as real - i as real
  {
    var w := 1.0 / n as real;
    assert raw == (level - i as real / n as real) / w;
    assert (level - i as real / n as real) / w == (level - i as real / n as real) * n as real;
  }

  /** The intensity of light i. The peak light is fully lit. Otherwise the
      raw intensity, clamped to [0, 1] on the OpenGL path only; with
      variable intensity off any positive intensity becomes 1. */
  function LightIntensity(backend: Backend, m: Meter, i: int, peakLight: int): (r: real)
    requires m.numLights > 0
    ensures i == peakLight ==> r == 1.0
    ensures backend == OpenGL ==> 0.0 <= r <= 1.0
    ensures i != peakLight && m.variableLightIntensity && backend == CoreGraphics ==>
              r == m.level * m.numLights as real - i as real
    ensures i != peakLight && m.variableLightIntensity && backend == OpenGL ==>
              r == Clamp(0.0, m.level * m.numLights as real - i as real, 1.0)
    ensures i != peakLight && !m.variableLightIntensity ==>
              (r == 1.0 <==> m.level * m.numLights as real - i as real > 0.0)
    ensures !m.variableLightIntensity ==> r == 1.0 || r <= 0.0
  {
    if i == peakLight then 1.0
    else
      var raw := RawIntensity(m.level, i, m.numLights);
      var v := if backend == OpenGL then Clamp(0.0, raw, 1.0) else raw;
      if !m.variableLightIntensity && v > 0.0 then 1.0 else v
  }

  /** The colour loop from threshold j on, `c` being the colour chosen so far:
      each threshold j below the last whose maxValue is at most the light's
      maxValue passes the colour on to threshold j + 1. */
  function ColorScan(t: seq<ColorThreshold>, lightMaxVal: real, j: nat, c: nat): (r: nat)
    requires 1 <= |t| && j <= |t| - 1 && c < |t|
    requires c > 0 ==> c <= j && t[c - 1].maxValue <= lightMaxVal
    ensures r < |t|
    ensures r == c || j < r
    ensures r > 0 ==> t[r - 1].maxValue <= lightMaxVal
    ensures forall q :: r <= q < |t| - 1 && j <= q ==> t[q].maxValue > lightMaxVal
    decreases |t| - j
  {
    if j == |t| - 1 then c
    else ColorScan(t, lightMaxVal, j + 1, if t[j].maxValue <= lightMaxVal then j + 1 else c)
  }

  /** The threshold whose colour a light takes: one past the last
      threshold (other than the last) whose maxValue is at most the light's
      maxValue, or threshold 0 when there is none. */
  function ColorIndex(t: seq<ColorThreshold>, lightMaxVal: real): (r: nat)
    requires |t| >= 1
    ensures r < |t|
    ensures r > 0 ==> t[r - 1].maxValue <= lightMaxVal
    ensures forall q :: r <= q < |t| - 1 ==> t[q].maxValue > lightMaxVal
  {
    ColorScan(t, lightMaxVal, 0, 0)
  }

  /** For ascending thresholds the colour is that of the first threshold
      whose maxValue strictly exceeds the light's maxValue, or the last. */
  lemma ColorIndexAscending(t: seq<ColorThreshold>, lightMaxVal: real)
    requires |t| >= 1 && Ascending(t)
    ensures forall q :: 0 <= q < ColorIndex(t, lightMaxVal) ==> t[q].maxValue <= lightMaxVal
    ensures ColorIndex(t, lightMaxVal) == |t| - 1 || t[ColorIndex(t, lightMaxVal)].maxValue > lightMaxVal
  {
    var r := ColorIndex(t, lightMaxVal);
    forall q | 0 <= q < r
      ensures t[q].maxValue <= lightMaxVal
    {
      assert t[q].maxValue <= t[r - 1].maxValue;
    }
  }

  /** The light spacing rule: no gap below 4 points per light, half a point
      below 8, one point from 8 on; so the inset never takes more than a
      quarter of a light's height. */
  function InsetAmount(lightVSpace: real): (r: real)
    ensures r == 0.0 || r == 0.5 || r == 1.0
    ensures lightVSpace >= 0.0 ==> 8.0 * r <= lightVSpace
    ensures lightVSpace >= 8.0 ==> r == 1.0
    ensures lightVSpace < 4.0 ==> r == 0.0
    ensures 4.0 <= lightVSpace < 8.0 ==> r == 0.5
  {
    if lightVSpace < 4.0 then 0.0
    else if lightVSpace < 8.0 then 0.5
    else 1.0
  }

  lemma InsetAmountMonotone(a: real, b: real)
    requires a <= b
    ensures InsetAmount(a) <= InsetAmount(b)
  {}

  /** Light i's rect before the inset. CoreGraphics stacks the lights from
      the origin; the OpenGL path multiplies the offset by the bounds'
      origin y as written. */
  function LightFrame(backend: Backend, bounds: Rect, n: int, i: int): (r: Rect)
    requires n > 0
    ensures r.x == 0.0 && r.width == bounds.width
    ensures r.height == bounds.height * (1.0 / n as real)
    ensures backend == CoreGraphics ==> r.y == bounds.height * (i as real / n as real)
    ensures backend == OpenGL ==> r.y == bounds.y * (bounds.height * (i as real / n as real))
  {
    var offset := bounds.height * (i as real / n as real);
    Rect(0.0, if backend == CoreGraphics then offset else bounds.y * offset,
         bounds.width, bounds.height * (1.0 / n as real))
  }

  /** On the CoreGraphics path consecutive lights tile the height: light
      i + 1 starts where light i ends, and the last ends at the top. */
  lemma LightsTile(bounds: Rect, n: int, i: int)
    requires n > 0 && 0 <= i < n
    ensures i + 1 < n ==> LightFrame(CoreGraphics, bounds, n, i + 1).y == Top(LightFrame(CoreGraphics, bounds, n, i))
    ensures Top(LightFrame(CoreGraphics, bounds, n, n - 1)) == bounds.height
    ensures LightFrame(CoreGraphics, bounds, n, 0).y == 0.0
  {
    var h := bounds.height;
    var w := 1.0 / n as real;
    assert (i + 1) as real / n as real == i as real / n as real + w;
    assert h * (i as real / n as real) + h * w == h * (i as real / n as real + w);
    assert (n - 1) as real / n as real + w == 1.0;
    assert h * ((n - 1) as real / n as real) + h * w == h * ((n - 1) as real / n as real + w);
  }

  /** One light: its rect after the inset, its colour threshold, its intensity. */
  datatype Light = Light(rect: Rect, threshold: nat, intensity: real)

  /** How a light is filled: in the threshold's colour, in that colour with
      the intensity as alpha, or not at all. */
  datatype Paint = Full | Faded(alpha: real) | Dark

  function PaintOf(intensity: real): (p: Paint)
    ensures p == Full <==> intensity == 1.0
    ensures p.Faded? <==> 0.0 < intensity && intensity != 1.0
    ensures p.Faded? ==> p.alpha == intensity
    ensures p == Dark <==> intensity <= 0.0
  {
    if intensity == 1.0 then Full
    else if intensity > 0.0 then Faded(intensity)
    else Dark
  }

  /** Light i of the loop: inset frame, colour threshold, intensity. */
  function LightAt(backend: Backend, m: Meter, bounds: Rect, i: int): (l: Light)
    requires m.numLights > 0 && |m.thresholds| >= 1
    ensures l.threshold < |m.thresholds|
    ensures l.rect == Inset(LightFrame(backend, bounds, m.numLights, i), InsetAmount(bounds.height / m.numLights as real))
    ensures i == PeakLight(m.peakLevel, m.numLights) ==> l.intensity == 1.0
    ensures backend == OpenGL ==> 0.0 <= l.intensity <= 1.0
    ensures l.threshold == ColorIndex(m.thresholds, (i + 1) as real / m.numLights as real)
    ensures l.intensity == LightIntensity(backend, m, i, PeakLight(m.peakLevel, m.numLights))
  {
    var n := m.numLights;
    var lightMaxVal := (i + 1) as real / n as real;
    Light(Inset(LightFrame(backend, bounds, n, i), InsetAmount(bounds.height / n as real)),
          ColorIndex(m.thresholds, lightMaxVal),
          LightIntensity(backend, m, i, PeakLight(m.peakLevel, n)))
  }

  /** The discrete-mode lights, in order from the meter's origin. */
  function Lights(backend: Backend, m: Meter, bounds: Rect): (r: seq<Light>)
    requires m.numLights > 0 && |m.thresholds| >= 1
    ensures |r| == m.numLights
    ensures forall i :: 0 <= i < |r| ==> r[i] == LightAt(backend, m, bounds, i)
    ensures forall i :: 0 <= i < |r| ==> r[i].threshold < |m.thresholds|
    ensures m.peakLevel > 0.0 ==> r[PeakLight(m.peakLevel, m.numLights)].intensity == 1.0
    ensures backend == OpenGL ==> forall i :: 0 <= i < |r| ==> 0.0 <= r[i].intensity <= 1.0
  {
    seq(m.numLights, i requires 0 <= i < m.numLights => LightAt(backend, m, bounds, i))
  }

  /** What one redraw produces. */
  datatype Drawing = Continuous(bands: seq<Band>) | Discrete(lights: seq<Light>)

  /** Well-formed meter settings: a non-negative light count and, when
      there are lights, at least one threshold to take a colour from. */
  predicate Drawable(m: Meter) {
    m.numLights >= 0 && (m.numLights > 0 ==> |m.thresholds| >= 1)
  }

  /** `draw(_:)` / `drawView()`: bands without lights, lights otherwise. */
  function Render(backend: Backend, m: Meter, viewWidth: real, viewHeight: real): (d: Drawing)
    requires Drawable(m)
    ensures m.numLights == 0 <==> d.Continuous?
    ensures d.Continuous? ==> d.bands == Bands(m.thresholds, m.level, DrawBounds(backend, m, viewWidth, viewHeight))
    ensures d.Discrete? ==> |d.lights| == m.numLights
    ensures d.Discrete? ==> d.lights == Lights(backend, m, DrawBounds(backend, m, viewWidth, viewHeight))
  {
    var bounds := DrawBounds(backend, m, viewWidth, viewHeight);
    if m.numLights == 0 then Continuous(Bands(m.thresholds, m.level, bounds))
    else Discrete(Lights(backend, m, bounds))
  }

  /** Ten lights, level and peak 0.95: the peak forces light 9 to full
      intensity; below it CoreGraphics leaves intensities above 1 while
      OpenGL clamps them to 1. */
  lemma TenLightsExample()
    ensures var m := Meter(10, 0.95, 0.95, DefaultThresholds(CoreGraphics), true, true, 0.0);
            var bounds := Rect(0.0, 0.0, 20.0, 100.0);
            && Lights(CoreGraphics, m, bounds)[9].intensity == 1.0
            && Lights(CoreGraphics, m, bounds)[0].intensity == 9.5
            && Lights(OpenGL, m, bounds)[0].intensity == 1.0
            && PaintOf(Lights(CoreGraphics, m, bounds)[0].intensity) == Faded(9.5)
  {
    var m := Meter(10, 0.95, 0.95, DefaultThresholds(CoreGraphics), true, true, 0.0);
    assert PeakLight(0.95, 10) == 9;
  }

  /** A light whose maxValue equals a threshold's maxValue already takes
      the next threshold's colour: with four lights and the default
      CoreGraphics thresholds, light 0 (maxValue 0.25) is yellow. */
  lemma BoundaryLightTakesNextColor()
    ensures ColorIndex(DefaultThresholds(CoreGraphics), 1.0 / 4.0) == 1
  {
    var t := DefaultThresholds(CoreGraphics);
    assert t[0].maxValue <= 1.0 / 4.0;
  }
}

=== FILE: MainViewController.dfy ===
/** The launcher screen's pure logic: the play history as a most-recent-
    first list with at most one entry moved per addition, the row-delete
    guard, and the two URL helpers. Persistence and the table view are
    not part of this model. */
module MainViewController {
  import opened Wrappers
  import opened Strings

  /** One history record: the URL string and the time it was last played. */
  datatype HistoryEntry = HistoryEntry(url: string, dt: real)

  predicate HasUrl(h: seq<HistoryEntry>, url: string) {
    exists k :: 0 <= k < |h| && h[k].url == url
  }

  predicate DistinctUrls(h: seq<HistoryEntry>) {
    forall a, b :: 0 <= a < b < |h| ==> h[a].url != h[b].url
  }

  /** The first position at or after `i` holding `url`. */
  function FindUrl(h: seq<HistoryEntry>, url: string, i: nat): (r: Option<nat>)
    requires i <= |h|
    ensures r.Some? ==> i <= r.value < |h| && h[r.value].url == url &&
                        forall k :: i <= k < r.value ==> h[k].url != url
    ensures r.None? ==> forall k :: i <= k < |h| ==> h[k].url != url
    decreases |h| - i
  {
    if i == |h| then None
    else if h[i].url == url then Some(i)
    else FindUrl(h, url, i + 1)
  }

  /** `remove(at:)`. */
  function RemoveAt(h: seq<HistoryEntry>, i: nat): (r: seq<HistoryEntry>)
    requires i < |h|
    ensures |r| == |h| - 1
    ensures forall k :: 0 <= k < i ==> r[k] == h[k]
    ensures forall k :: i <= k < |r| ==> r[k] == h[k + 1]
    ensures multiset(r) + multiset{h[i]} == multiset(h)
  {
    assert h == h[..i] + [h[i]] + h[i + 1..];
    h[..i] + h[i + 1..]
  }

  /** `addHistoryUrl`: the first entry with the same URL, if any, is
      removed, and a fresh entry stamped `now` goes to the front. */
  function AddHistoryUrl(h: seq<HistoryEntry>, url: string, now: real): (r: seq<HistoryEntry>)
    ensures |r| >= 1 && r[0] == HistoryEntry(url, now)
    ensures |r| == if HasUrl(h, url) then |h| else |h| + 1
    ensures !HasUrl(h, url) ==> r[1..] == h
    ensures HasUrl(h, url) ==>
              exists i :: 0 <= i < |h| && h[i].url == url && (forall k :: 0 <= k < i ==> h[k].url != url) &&
                          r[1..] == h[..i] + h[i + 1..]
  {
    var rest := match FindUrl(h, url, 0)
                case Some(i) => RemoveAt(h, i)
                case None => h;
    [HistoryEntry(url, now)] + rest
  }

  /** A history without repeated URLs keeps that property, and the added
      URL then appears only at the front. */
  lemma AddKeepsDistinct(h: seq<HistoryEntry>, url: string, now: real)
    requires DistinctUrls(h)
    ensures DistinctUrls(AddHistoryUrl(h, url, now))
    ensures forall k :: 1 <= k < |AddHistoryUrl(h, url, now)| ==> AddHistoryUrl(h, url, now)[k].url != url
  {
    var r := AddHistoryUrl(h, url, now);
    match FindUrl(h, url, 0)
    case None =>
      assert r[1..] == h;
      assert forall k :: 1 <= k < |r| ==> r[k] == h[k - 1];
    case Some(i) =>
      var rest := RemoveAt(h, i);
      assert r == [HistoryEntry(url, now)] + rest;
      forall k | 0 <= k < |rest| ensures rest[k].url != url {
        if k >= i {
          assert rest[k] == h[k + 1];
          assert h[i].url != h[k + 1].url;
        }
      }
      forall a, b | 0 <= a < b < |rest| ensures rest[a].url != rest[b].url {
        var a', b' := if a < i then a else a + 1, if b < i then b else b + 1;
        assert rest[a] == h[a'] && rest[b] == h[b'] && a' < b';
      }
  }

  /** Re-adding the newest URL only refreshes its time stamp. */
  lemma AddNewestAgain(h: seq<HistoryEntry>, url: string, now: real)
    requires |h| > 0 && h[0].url == url
    ensures AddHistoryUrl(h, url, now) == h[0 := HistoryEntry(url, now)]
  {
    assert FindUrl(h, url, 0) == Some(0);
  }

  /** `deleteHistoryAtIndex`: exactly that entry goes; `remove(at:)` traps
      on any other index. */
  function DeleteHistoryAtIndex(h: seq<HistoryEntry>, index: nat): (r: seq<HistoryEntry>)
    requires index < |h|
    ensures |r| == |h| - 1
    ensures r[..index] == h[..index] && r[index..] == h[index + 1..]
    ensures multiset(r) + multiset{h[index]} == multiset(h)
  {
    RemoveAt(h, index)
  }

  datatype EditingStyle = NoEditing | Delete | Insert

  /** Section 0 holds the fixed entries and offers no editing; the history
      section offers deletion. */
  function EditingStyleFor(section: int): EditingStyle {
    if section == 0 then NoEditing else Delete
  }

  /** The commit-editing handler: deletes only a delete on a history row
      that exists; any other commit leaves the history alone. */
  function CommitEdit(h: seq<HistoryEntry>, section: int, row: nat, style: EditingStyle): (r: seq<HistoryEntry>)
    ensures section == 0 || style != Delete || row >= |h| ==> r == h
    ensures section != 0 && style == Delete && row < |h| ==>
              |r| == |h| - 1 && multiset(r) + multiset{h[row]} == multiset(h)
  {
    if section == 0 then h
    else if style == Delete && row < |h| then DeleteHistoryAtIndex(h, row)
    else h
  }

  /** The style the table offers is never acted on for section 0, and a
      delete it offers on an existing row removes exactly that row. */
  lemma OfferedDeleteRemovesRow(h: seq<HistoryEntry>, section: int, row: nat)
    requires row < |h|
    ensures var r := CommitEdit(h, section, row, EditingStyleFor(section));
      (section == 0 ==> r == h) &&
      (section != 0 ==> r[..row] == h[..row] && r[row..] == h[row + 1..])
  {}

  /** `deleteAllHistory`. */
  function DeleteAllHistory(h: seq<HistoryEntry>): (r: seq<HistoryEntry>)
    ensures |r| == 0
  {
    []
  }

  /** After clearing, the next addition is the whole history. */
  lemma AddAfterDeleteAll(h: seq<HistoryEntry>, url: string, now: real)
    ensures AddHistoryUrl(DeleteAllHistory(h), url, now) == [HistoryEntry(url, now)]
  {
    assert !HasUrl(DeleteAllHistory(h), url);
  }

  // ---------------------------------------------------------------------
  // URL helpers
  // ---------------------------------------------------------------------

  /** ASCII case folding. */
  function Lower(c: char): char {
    if 'A' <= c <= 'Z' then (c as int - 'A' as int + 'a' as int) as char else c
  }

  /** A string with every ASCII letter folded to lower case. */
  function Fold(s: string): (r: string)
    ensures |r| == |s| && forall k :: 0 <= k < |s| ==> r[k] == Lower(s[k])
  {
    seq(|s|, k requires 0 <= k < |s| => Lower(s[k]))
  }

  /** `compare(_:options: .caseInsensitive) == .orderedSame`, for ASCII text. */
  predicate SameIgnoringCase(a: string, b: string) {
    |a| == |b| && forall k :: 0 <= k < |a| ==> Lower(a[k]) == Lower(b[k])
  }

  /** Case-insensitive equality is equality once both strings are folded to
      lower case; in particular it is an equivalence. */
  lemma SameIgnoringCaseIsFoldedEquality(a: string, b: string)
    ensures SameIgnoringCase(a, b) <==> Fold(a) == Fold(b)
  {
    if SameIgnoringCase(a, b) {
      assert forall k :: 0 <= k < |a| ==> Fold(a)[k] == Fold(b)[k];
    }
  }

  /** `isLocalFile`, as written: the text compared with "file" runs up to
      and including the first ':', so it never matches and only strings
      without a ':' count as local. */
  function IsLocalFile(url: string): (r: bool)
    ensures r <==> ':' !in url
  {
    match FindChar(url, ':', 0)
    case None => true
    case Some(i) =>
      assert url[i] == ':';
      assert Lower(url[..i + 1][i]) == ':';
      SameIgnoringCase(url[..i + 1], "file")
  }

  /** `isLocalFile` comparing the scheme, the text before the first ':'. */
  function IsLocalFileByScheme(url: string): (r: bool)
    ensures r <==> ':' !in url || (|url| >= 5 && url[4] == ':' && SameIgnoringCase(url[..4], "file"))
  {
    match FindChar(url, ':', 0)
    case None => true
    case Some(i) =>
      assert Lower(url[i]) == ':';
      SameIgnoringCase(url[..i], "file")
  }

  /** A `file://` URL is local only when the scheme is compared. */
  lemma FileUrlNotLocal()
    ensures !IsLocalFile("file:///music/a.mp3")
    ensures IsLocalFileByScheme("file:///music/a.mp3")
    ensures IsLocalFileByScheme("FILE:///music/a.mp3")
    ensures !IsLocalFileByScheme("http://host/a.mp3")
    ensures IsLocalFile("music/a.mp3") && IsLocalFileByScheme("music/a.mp3")
  {
    assert "file:///music/a.mp3"[4] == ':';
    assert "FILE:///music/a.mp3"[4] == ':';
    assert "http://host/a.mp3"[4] == ':';
    assert "http://host/a.mp3"[..4][0] == 'h';
  }

  /** `checkUrl`: URLs (anything with a ':') and absolute paths are kept;
      any other string is a path relative to the documents directory,
      joined by `appendPath` (`appendingPathComponent`). */
  function CheckUrl(url: string, documents: string, appendPath: (string, string) -> string): (r: string)
    ensures !IsLocalFile(url) ==> r == url
    ensures |url| > 0 && url[0] == '/' ==> r == url
    ensures IsLocalFile(url) && (|url| == 0 || url[0] != '/') ==> r == appendPath(documents, url)
  {
    if FindChar(url, ':', 0).Some? then url
    else if |url| > 0 && url[0] == '/' then url
    else appendPath(documents, url)
  }

  /** Once resolved, a URL resolves to itself, provided the join yields an
      absolute path without a ':' (the documents directory is one). */
  lemma CheckUrlIdempotent(url: string, documents: string, appendPath: (string, string) -> string)
    requires var j := appendPath(documents, url); |j| > 0 && j[0] == '/'
    ensures CheckUrl(CheckUrl(url, documents, appendPath), documents, appendPath) == CheckUrl(url, documents, appendPath)
  {}
}

=== FILE: MeterTable.dfy ===
/** The decibel lookup table: a precomputed curve from decibels in
    [minDecibels, 0] to a meter value in [0, 1]. Index 0 is 0 dB (value 1),
    the last index is minDecibels (value 0). `pow` is taken as a parameter;
    `PowLaws` lists the facts of real exponentiation the proofs rely on. */
module MeterTable {
  import opened SwiftInt

  const DefaultMinDecibels: real := -80.0
  const DefaultTableSize: int := 400
  const DefaultRoot: real := 2.0

  /** The table together with the values the initialiser stores. */
  datatype Table = Table(minDecibels: real, resolution: real, table: seq<real>)

  /** The linear amplitude of a decibel value, 10^(dB/20). */
  function Amp(pow: (real, real) -> real, decibels: real): real {
    pow(10.0, 0.05 * decibels)
  }

  /** The root taken of a normalised amplitude, a^(1/root). */
  function Root(pow: (real, real) -> real, root: real, a: real): real
    requires root != 0.0
  {
    pow(a, 1.0 / root)
  }

  /** What the proofs need of `pow`: 10^0 = 1, 10^x strictly increasing,
      and x^(1/root) monotone on x >= 0, sending 0 to 0 and 1 to 1. */
  ghost predicate PowLaws(pow: (real, real) -> real, root: real) {
    && root > 0.0
    && Amp(pow, 0.0) == 1.0
    && (forall x, y :: x < y ==> Amp(pow, x) < Amp(pow, y))
    && Root(pow, root, 0.0) == 0.0
    && Root(pow, root, 1.0) == 1.0
    && (forall a, b :: 0.0 <= a <= b ==> Root(pow, root, a) <= Root(pow, root, b))
  }

  /** What the construction loop itself needs so that its divisions are defined. */
  predicate Constructible(minDecibels: real, root: real, pow: (real, real) -> real) {
    minDecibels < 0.0 ==> root != 0.0 && Amp(pow, minDecibels) != 1.0
  }

  /** The amplitude normalised so that minDecibels maps to 0 and 0 dB to 1. */
  function AdjAmp(decibels: real, minDecibels: real, pow: (real, real) -> real): real
    requires Amp(pow, minDecibels) != 1.0
  {
    var minAmp := Amp(pow, minDecibels);
    var invAmpRange := 1.0 / (1.0 - minAmp);
    (Amp(pow, decibels) - minAmp) * invAmpRange
  }

  /** The table entry for one decibel value: the normalised amplitude
      raised to 1/root. With a genuine power function it lies in [0, 1],
      is 1 at 0 dB and 0 at minDecibels. */
  function Entry(decibels: real, minDecibels: real, root: real, pow: (real, real) -> real): (r: real)
    requires root != 0.0 && Amp(pow, minDecibels) != 1.0
    ensures PowLaws(pow, root) && minDecibels <= decibels <= 0.0 && minDecibels < 0.0 ==> 0.0 <= r <= 1.0
    ensures PowLaws(pow, root) && minDecibels < 0.0 && decibels == 0.0 ==> r == 1.0
    ensures PowLaws(pow, root) && minDecibels < 0.0 && decibels == minDecibels ==> r == 0.0
  {
    EntryRange(decibels, minDecibels, root, pow);
    Root(pow, root, AdjAmp(decibels, minDecibels, pow))
  }

  lemma EntryRange(decibels: real, minDecibels: real, root: real, pow: (real, real) -> real)
    requires root != 0.0 && Amp(pow, minDecibels) != 1.0
    ensures PowLaws(pow, root) && minDecibels <= decibels <= 0.0 && minDecibels < 0.0 ==>
              0.0 <= Root(pow, root, AdjAmp(decibels, minDecibels, pow)) <= 1.0
    ensures PowLaws(pow, root) && minDecibels < 0.0 && decibels == 0.0 ==>
              Root(pow, root, AdjAmp(decibels, minDecibels, pow)) == 1.0
    ensures PowLaws(pow, root) && minDecibels < 0.0 && decibels == minDecibels ==>
              Root(pow, root, AdjAmp(decibels, minDecibels, pow)) == 0.0
  {
    if PowLaws(pow, root) && minDecibels < 0.0 {
      AdjAmpMonotone(minDecibels, minDecibels, minDecibels, pow);
      AdjAmpEndpoints(minDecibels, pow);
      if minDecibels <= decibels <= 0.0 {
        AdjAmpMonotone(decibels, decibels, minDecibels, pow);
      }
    }
  }

  /** `init(minDecibels:tableSize:root:)`: resolution is always assigned;
      a non-negative minimum returns early with an empty table. */
  function Build(minDecibels: real, tableSize: int, root: real, pow: (real, real) -> real): (m: Table)
    requires tableSize >= 2
    requires Constructible(minDecibels, root, pow)
    ensures m.minDecibels == minDecibels
    ensures m.resolution * (tableSize - 1) as real == minDecibels
    ensures minDecibels >= 0.0 ==> m.table == []
    ensures minDecibels < 0.0 ==> |m.table| == tableSize
    ensures minDecibels < 0.0 ==>
              forall i :: 0 <= i < tableSize ==>
                m.table[i] == Entry(GridDecibels(i, m.resolution), minDecibels, root, pow)
  {
    var resolution := minDecibels / (tableSize - 1) as real;
    DivMul(minDecibels, (tableSize - 1) as real);
    if minDecibels >= 0.0 then
      Table(minDecibels, resolution, [])
    else
      Table(minDecibels, resolution, Entries(tableSize, resolution, minDecibels, root, pow))
  }

  /** The decibel value of table index i. */
  function GridDecibels(i: int, resolution: real): real {
    i as real * resolution
  }

  /** The loop of the initialiser: entry i at decibels i * resolution. */
  function Entries(tableSize: nat, resolution: real, minDecibels: real, root: real, pow: (real, real) -> real): (t: seq<real>)
    requires root != 0.0 && Amp(pow, minDecibels) != 1.0
    ensures |t| == tableSize
    ensures forall i :: 0 <= i < tableSize ==> t[i] == Entry(GridDecibels(i, resolution), minDecibels, root, pow)
  {
    if tableSize == 0 then []
    else Entries(tableSize - 1, resolution, minDecibels, root, pow)
         + [Entry(GridDecibels(tableSize - 1, resolution), minDecibels, root, pow)]
  }

  lemma DivMul(a: real, n: real)
    requires n != 0.0
    ensures (a / n) * n == a
  {}

  /** `init(minDecibels:)`: table size 400 and root 2. */
  function WithMinDecibels(minDecibels: real, pow: (real, real) -> real): (m: Table)
    requires Constructible(minDecibels, DefaultRoot, pow)
    ensures m.minDecibels == minDecibels
    ensures minDecibels < 0.0 ==> |m.table| == 400
    ensures minDecibels < 0.0 ==>
              forall i :: 0 <= i < 400 ==> m.table[i] == Entry(GridDecibels(i, m.resolution), minDecibels, 2.0, pow)
  {
    Build(minDecibels, DefaultTableSize, DefaultRoot, pow)
  }

  /** The no-argument convenience initialiser: minDecibels -80. */
  function Default(pow: (real, real) -> real): (m: Table)
    requires Amp(pow, -80.0) != 1.0
    ensures m.minDecibels == -80.0
    ensures |m.table| == 400
    ensures m.resolution * 399.0 == -80.0
  {
    WithMinDecibels(DefaultMinDecibels, pow)
  }

  /** The shape every built table has: a negative minimum comes with at
      least two entries and the matching resolution. */
  predicate Shaped(m: Table) {
    m.minDecibels < 0.0 ==>
      |m.table| >= 2 && m.resolution * (|m.table| - 1) as real == m.minDecibels
  }

  predicate NonIncreasing(s: seq<real>) {
    forall i, j :: 0 <= i <= j < |s| ==> s[j] <= s[i]
  }

  predicate InUnit(s: seq<real>) {
    forall i :: 0 <= i < |s| ==> 0.0 <= s[i] <= 1.0
  }

  /** The index `valueAt` looks up for a decibel value inside
      [minDecibels, 0): the grid point at or just above it, so the lookup
      rounds toward 0 dB by less than one resolution step. */
  function LookupIndex(m: Table, decibels: real): (idx: int)
    requires Shaped(m)
    requires m.minDecibels <= decibels < 0.0
    ensures 0 <= idx < |m.table|
    ensures decibels <= idx as real * m.resolution < decibels - m.resolution
  {
    var x := decibels * (1.0 / m.resolution);
    ScaledIndex(decibels, m.resolution, (|m.table| - 1) as real, m.minDecibels);
    var idx := Trunc(x);
    GridPoint(x, idx, m.resolution, decibels);
    idx
  }

  lemma ScaledIndex(d: real, res: real, n: real, minDecibels: real)
    requires n >= 1.0 && res * n == minDecibels && minDecibels <= d < 0.0
    ensures res < 0.0
    ensures 0.0 < d * (1.0 / res) <= n
  {
    var s := 1.0 / res;
    assert s * res == 1.0;
    assert s < 0.0;
    assert d * s <= minDecibels * s;
    assert minDecibels * s == n * (res * s);
  }

  lemma GridPoint(x: real, idx: int, res: real, d: real)
    requires res < 0.0 && x == d * (1.0 / res)
    requires idx as real <= x < idx as real + 1.0
    ensures d <= idx as real * res < d - res
  {
    assert x * res == d;
    assert (idx as real) * res >= x * res;
    assert (idx as real + 1.0) * res < x * res;
  }

  /** `valueAt(in:)`: 0 below the range, 1 at or above 0 dB, otherwise the
      table entry at the truncated index, with no interpolation. */
  function ValueAt(m: Table, decibels: real): (v: real)
    requires Shaped(m)
    ensures decibels < m.minDecibels ==> v == 0.0
    ensures m.minDecibels <= decibels && decibels >= 0.0 ==> v == 1.0
    ensures m.minDecibels <= decibels < 0.0 ==> v in m.table
    ensures m.minDecibels <= decibels < 0.0 ==>
              exists i :: 0 <= i < |m.table| && decibels <= i as real * m.resolution < decibels - m.resolution &&
                          v == m.table[i]
  {
    if decibels < m.minDecibels then 0.0
    else if decibels >= 0.0 then 1.0
    else m.table[LookupIndex(m, decibels)]
  }

  /** A table with minDecibels >= 0, which the initialiser leaves empty, is
      never indexed: whatever it holds, every query is answered by one of
      the two early returns. */
  lemma EmptyTableNeverIndexed(m: Table, decibels: real)
    requires m.minDecibels >= 0.0
    ensures Shaped(m) && ValueAt(m, decibels) == (if decibels < m.minDecibels then 0.0 else 1.0)
  {}

  lemma AdjAmpEndpoints(minDecibels: real, pow: (real, real) -> real)
    requires Amp(pow, minDecibels) < 1.0 && Amp(pow, 0.0) == 1.0
    ensures AdjAmp(0.0, minDecibels, pow) == 1.0
    ensures AdjAmp(minDecibels, minDecibels, pow) == 0.0
  {
    var minAmp := Amp(pow, minDecibels);
    assert (1.0 - minAmp) * (1.0 / (1.0 - minAmp)) == 1.0;
  }

  /** Index 0 is 0 dB and holds 1; the last index is minDecibels and holds 0. */
  lemma TableEndpoints(minDecibels: real, tableSize: int, root: real, pow: (real, real) -> real)
    requires tableSize >= 2 && minDecibels < 0.0
    requires PowLaws(pow, root)
    ensures Constructible(minDecibels, root, pow)
    ensures Build(minDecibels, tableSize, root, pow).table[0] == 1.0
    ensures Build(minDecibels, tableSize, root, pow).table[tableSize - 1] == 0.0
  {
    assert Amp(pow, minDecibels) < Amp(pow, 0.0);
    var m := Build(minDecibels, tableSize, root, pow);
    AdjAmpEndpoints(minDecibels, pow);
    assert GridDecibels(0, m.resolution) == 0.0;
    assert GridDecibels(tableSize - 1, m.resolution) == minDecibels;
  }

  /** For decibels in [minDecibels, 0] the normalised amplitude lies in
      [0, 1] and grows with the decibel value. */
  lemma AdjAmpMonotone(d1: real, d2: real, minDecibels: real, pow: (real, real) -> real)
    requires Amp(pow, 0.0) == 1.0
    requires forall x, y :: x < y ==> Amp(pow, x) < Amp(pow, y)
    requires minDecibels <= d1 <= d2 <= 0.0 && minDecibels < 0.0
    ensures Amp(pow, minDecibels) < 1.0
    ensures 0.0 <= AdjAmp(d1, minDecibels, pow) <= AdjAmp(d2, minDecibels, pow) <= 1.0
  {
    var minAmp := Amp(pow, minDecibels);
    assert minAmp < Amp(pow, 0.0);
    var inv := 1.0 / (1.0 - minAmp);
    var a1 := Amp(pow, d1);
    var a2 := Amp(pow, d2);
    assert minAmp <= a1 <= a2 <= 1.0;
    MulMonotone(0.0, a1 - minAmp, inv);
    MulMonotone(a1 - minAmp, a2 - minAmp, inv);
    MulMonotone(a2 - minAmp, 1.0 - minAmp, inv);
    assert (1.0 - minAmp) * inv == 1.0;
  }

  lemma MulMonotone(a: real, b: real, c: real)
    requires a <= b && c > 0.0
    ensures a * c <= b * c
  {}

  /** For decibels in [minDecibels, 0] an entry lies in [0, 1], and a louder
      decibel value never gets a smaller entry. */
  lemma EntryMonotone(d1: real, d2: real, minDecibels: real, root: real, pow: (real, real) -> real)
    requires minDecibels < 0.0 && PowLaws(pow, root)
    requires minDecibels <= d1 <= d2 <= 0.0
    ensures Amp(pow, minDecibels) != 1.0
    ensures 0.0 <= Entry(d1, minDecibels, root, pow) <= Entry(d2, minDecibels, root, pow) <= 1.0
  {
    AdjAmpMonotone(d1, d2, minDecibels, pow);
    var adj1 := AdjAmp(d1, minDecibels, pow);
    var adj2 := AdjAmp(d2, minDecibels, pow);
    assert Root(pow, root, 0.0) <= Root(pow, root, adj1);
    assert Root(pow, root, adj1) <= Root(pow, root, adj2);
    assert Root(pow, root, adj2) <= Root(pow, root, 1.0);
  }

  lemma GridOrder(i: int, j: int, n: int, res: real, minDecibels: real)
    requires 0 <= i <= j <= n && res < 0.0 && res * n as real == minDecibels
    ensures minDecibels <= GridDecibels(j, res) <= GridDecibels(i, res) <= 0.0
  {
    assert (j - i) as real * res <= 0.0;
    assert (n - j) as real * res <= 0.0;
  }

  /** With a genuine power function the table is non-increasing in its
      index and every entry lies in [0, 1]. */
  lemma BuildMonotone(minDecibels: real, tableSize: int, root: real, pow: (real, real) -> real)
    requires tableSize >= 2 && PowLaws(pow, root)
    requires Constructible(minDecibels, root, pow)
    ensures NonIncreasing(Build(minDecibels, tableSize, root, pow).table)
    ensures InUnit(Build(minDecibels, tableSize, root, pow).table)
    ensures Shaped(Build(minDecibels, tableSize, root, pow))
  {
    var m := Build(minDecibels, tableSize, root, pow);
    if minDecibels < 0.0 {
      forall i, j | 0 <= i <= j < tableSize
        ensures 0.0 <= m.table[j] <= m.table[i] <= 1.0
      {
        GridOrder(i, j, tableSize - 1, m.resolution, minDecibels);
        EntryMonotone(GridDecibels(j, m.resolution), GridDecibels(i, m.resolution), minDecibels, root, pow);
      }
    }
  }

  /** A louder decibel value never looks up a later index. */
  lemma LookupIndexMonotone(m: Table, d1: real, d2: real)
    requires Shaped(m)
    requires m.minDecibels <= d1 <= d2 < 0.0
    ensures LookupIndex(m, d2) <= LookupIndex(m, d1)
  {
    var s := 1.0 / m.resolution;
    ScaledIndex(d1, m.resolution, (|m.table| - 1) as real, m.minDecibels);
    assert d2 * s <= d1 * s by { MulAntitone(d1, d2, s); }
    TruncMonotone(d2 * s, d1 * s);
  }

  lemma MulAntitone(a: real, b: real, c: real)
    requires a <= b && c < 0.0
    ensures b * c <= a * c
  {}

  /** `valueAt` stays within [0, 1] and is monotone non-decreasing in its
      argument whenever the table is non-increasing and within [0, 1]. */
  lemma ValueAtMonotone(m: Table, d1: real, d2: real)
    requires Shaped(m) && NonIncreasing(m.table) && InUnit(m.table)
    requires d1 <= d2
    ensures 0.0 <= ValueAt(m, d1) <= ValueAt(m, d2) <= 1.0
  {
    if m.minDecibels <= d1 && d2 < 0.0 {
      LookupIndexMonotone(m, d1, d2);
    }
  }

  /** Every built table answers within [0, 1] and monotonically. */
  lemma BuiltValueAtMonotone(minDecibels: real, tableSize: int, root: real, pow: (real, real) -> real, d1: real, d2: real)
    requires tableSize >= 2 && PowLaws(pow, root)
    requires Constructible(minDecibels, root, pow)
    requires d1 <= d2
    ensures Shaped(Build(minDecibels, tableSize, root, pow))
    ensures var m := Build(minDecibels, tableSize, root, pow);
            0.0 <= ValueAt(m, d1) <= ValueAt(m, d2) <= 1.0
  {
    BuildMonotone(minDecibels, tableSize, root, pow);
    ValueAtMonotone(Build(minDecibels, tableSize, root, pow), d1, d2);
  }
}

=== FILE: Strings.dfy ===
/** Character search in strings, as Foundation's `range(of:)` does it for
    a single character. */
module Strings {
  import opened Wrappers

  /** The first position at or after `i` holding `c`. */
  function FindChar(s: string, c: char, i: nat): (r: Option<nat>)
    requires i <= |s|
    ensures r.Some? ==> i <= r.value < |s| && s[r.value] == c && forall k :: i <= k < r.value ==> s[k] != c
    ensures r.None? ==> forall k :: i <= k < |s| ==> s[k] != c
    decreases |s| - i
  {
    if i == |s| then None
    else if s[i] == c then Some(i)
    else FindChar(s, c, i + 1)
  }
}

=== FILE: SwiftInt.dfy ===
/** Swift's `Int` arithmetic where it differs from Dafny's: conversion from
    a floating-point value and division both truncate toward zero. */
module SwiftInt {

  /** Swift's `Int(x)`: conversion that truncates toward zero. */
  function Trunc(x: real): (r: int)
    ensures 0.0 <= x ==> r as real <= x < r as real + 1.0
    ensures x < 0.0 ==> r as real - 1.0 < x <= r as real
  {
    if x >= 0.0 then x.Floor else -((-x).Floor)
  }

  lemma TruncMonotone(x: real, y: real)
    requires 0.0 <= x <= y
    ensures Trunc(x) <= Trunc(y)
  {}

  /** Swift's `/` on `Int`: the quotient truncated toward zero. */
  function SwiftDiv(a: int, b: int): (q: int)
    requires b > 0
    ensures a >= 0 ==> q * b <= a < q * b + b
    ensures a < 0 ==> q * b - b < a <= q * b
  {
    if a >= 0 then a / b else -((-a) / b)
  }

  /** Swift's `%` on `Int`: the remainder takes the sign of the dividend. */
  function SwiftRem(a: int, b: int): (r: int)
    requires b > 0
    ensures SwiftDiv(a, b) * b + r == a
    ensures a >= 0 ==> 0 <= r < b
    ensures a < 0 ==> -b < r <= 0
  {
    a - SwiftDiv(a, b) * b
  }
}

=== FILE: ViewController.dfy ===
/** The player screen's time label: `time2string` renders a playback
    position in seconds as minutes, a colon and two-digit seconds. */
module ViewController {
  import opened Wrappers
  import opened Strings
  import opened SwiftInt

  function DigitChar(d: int): char
    requires 0 <= d < 10
  {
    ('0' as int + d) as char
  }

  predicate IsDigit(c: char) {
    '0' <= c <= '9'
  }

  predicate AllDigits(s: string) {
    forall k :: 0 <= k < |s| ==> IsDigit(s[k])
  }

  /** The decimal digits of `n`, most significant first, no leading zeros. */
  function Digits(n: nat): (s: string)
    ensures |s| >= 1 && AllDigits(s)
    ensures n < 10 <==> |s| == 1
    decreases n
  {
    if n < 10 then [DigitChar(n)] else Digits(n / 10) + [DigitChar(n % 10)]
  }

  /** `%zd`: a '-' for negative values, then the digits of the magnitude,
      which read back to it. */
  function Decimal(n: int): (s: string)
    ensures n >= 0 ==> AllDigits(s) && ParseDigits(s) == n
    ensures n < 0 ==> |s| >= 2 && s[0] == '-' && AllDigits(s[1..]) && ParseDigits(s[1..]) == -n
  {
    ParseDigitsOfDigits(if n < 0 then -n else n);
    if n < 0 then
      assert ("-" + Digits(-n))[1..] == Digits(-n);
      "-" + Digits(-n)
    else Digits(n)
  }

  /** `%02zd`: zero-padded to width 2, the sign counting towards the width. */
  function Pad2(n: int): (s: string)
    ensures |s| >= 2
    ensures 0 <= n < 100 ==> |s| == 2 && AllDigits(s)
  {
    if n < 0 then "-" + Digits(-n)
    else if n < 10 then "0" + Digits(n)
    else Digits(n)
  }

  /** `time2string`. */
  function Time2String(t: real): (r: string)
    ensures t >= 0.0 ==>
              var sec := Trunc(t);
              r == Digits(sec / 60) + ":" + Pad2(sec % 60) && 0 <= sec % 60 <= 59 && 60 * (sec / 60) + sec % 60 == sec
  {
    var sec := Trunc(t);
    Decimal(SwiftDiv(sec, 60)) + ":" + Pad2(SwiftRem(sec, 60))
  }

  // ---------------------------------------------------------------------
  // Reading a label back
  // ---------------------------------------------------------------------

  /** The value of a string of decimal digits. */
  function ParseDigits(s: string): nat
    requires AllDigits(s)
    decreases |s|
  {
    if |s| == 0 then 0
    else ParseDigits(s[..|s| - 1]) * 10 + (s[|s| - 1] as int - '0' as int)
  }

  lemma {:induction false} ParseDigitsOfDigits(n: nat)
    ensures ParseDigits(Digits(n)) == n
    decreases n
  {
    if n >= 10 {
      var d := Digits(n / 10);
      ParseDigitsOfDigits(n / 10);
      assert Digits(n)[..|Digits(n)| - 1] == d;
    }
  }

  lemma ParsePad2(n: int)
    requires 0 <= n < 60
    ensures ParseDigits(Pad2(n)) == n
  {
    if n < 10 {
      var p := Pad2(n);
      assert p[..1] == "0" && p[1] == DigitChar(n);
      assert ParseDigits("0") == 0;
    } else {
      ParseDigitsOfDigits(n);
    }
  }

  datatype Clock = Clock(minutes: nat, seconds: nat)

  /** A label read back as minutes and seconds: digits, one ':', then
      exactly two digits for a value below 60. */
  function ParseTime(text: string): (r: Option<Clock>)
    ensures r.Some? ==> r.value.seconds < 60
  {
    match FindChar(text, ':', 0)
    case None => None
    case Some(i) =>
      var minutes, seconds := text[..i], text[i + 1..];
      if |minutes| >= 1 && AllDigits(minutes) && |seconds| == 2 && AllDigits(seconds) &&
         ParseDigits(seconds) < 60
      then Some(Clock(ParseDigits(minutes), ParseDigits(seconds)))
      else None
  }

  /** For a non-negative time the label reads back as the whole minutes and
      the remaining seconds of the truncated time. */
  lemma Time2StringRoundTrip(t: real)
    requires t >= 0.0
    ensures var sec := Trunc(t);
      ParseTime(Time2String(t)).Some? &&
      60 * ParseTime(Time2String(t)).value.minutes + ParseTime(Time2String(t)).value.seconds == sec
  {
    var sec := Trunc(t);
    var m, s := sec / 60, sec % 60;
    var d := Digits(m);
    var text := Time2String(t);
    assert text == d + ":" + Pad2(s);
    assert text[|d|] == ':';
    assert forall k :: 0 <= k < |d| ==> text[k] == d[k];
    assert FindChar(text, ':', 0) == Some(|d|);
    assert text[..|d|] == d;
    assert text[|d| + 1..] == Pad2(s);
    ParseDigitsOfDigits(m);
    ParsePad2(s);
  }

  /** Different whole seconds give different labels. */
  lemma Time2StringInjective(a: real, b: real)
    requires a >= 0.0 && b >= 0.0 && Trunc(a) != Trunc(b)
    ensures Time2String(a) != Time2String(b)
  {
    Time2StringRoundTrip(a);
    Time2StringRoundTrip(b);
  }

  /** Fractions of a second never show. */
  lemma FractionIgnored(t: real)
    requires t >= 0.0
    ensures Time2String(t) == Time2String(Trunc(t) as real)
  {
    assert Trunc(Trunc(t) as real) == Trunc(t);
  }

  /** There is no hour field; negative times keep their sign in both fields. */
  lemma Examples()
    ensures Time2String(3600.0) == "60:00"
    ensures Time2String(59.9) == "0:59"
    ensures Time2String(125.0) == "2:05"
    ensures Time2String(-65.5) == "-1:-5"
  {
    assert Trunc(3600.0) == 3600;
    assert Digits(60) == "60";
    assert Trunc(59.9) == 59;
    assert Digits(59) == "59";
    assert Trunc(125.0) == 125;
    assert Trunc(-65.5) == -65;
  }
}

=== FILE: Wrappers.dfy ===
/** Optional values, standing in for Swift's `T?`. */
module Wrappers {

  datatype Option<+T> = None | Some(value: T)
}
